=== FILE: README.md ===
# Kotsuke road-damage backend — Dafny model

This project models the backend of a citizen road-damage reporting service. Citizens
upload a photo of a pothole with its coordinates; a detector's boxes are classified as
SERIUS, TIDAK_SERIUS or AMAN; accepted reports ("posts") earn the uploader 10 points. Other
citizens vote CONFIRM or FALSE on a post, and officers (PETUGAS) and admins move a post
through MENUNGGU → DIPROSES → SELESAI. The service also has accounts with an admin console,
password login and Google login, reviews with an automatic sentiment label, a JWT gate on
protected routes, and the sentiment model's label mapping.

The database is an immutable `Store.State`: one map per table, keyed by primary key, and
the next key each table hands out. Every request handler is a pure function, or a method
where it loops or sorts. It takes the state and the request and returns a `Step`, which is
the reply (`Ok(code, value)` or `Err(code, message)`, with the service's own messages) plus
the new state. Handlers that fail leave the state unchanged, as a request that returns
before `commit` does.

`Store.Valid` is the database invariant. It says:
- usernames and emails are unique;
- there is one vote per (post, user);
- every post's `confirm_count`/`false_count` equals its live vote counts;
- keys are below the counters.

The model proves that every handler keeps this invariant, except user deletion as written
(see Findings).

Modules, one per source component:
- `Severity`: utils/ai_helper.py.
- `Store`: models.py entities, the invariant and the `to_dict` views.
- `Posts`: routes/posts.py.
- `Users`: routes/users.py.
- `Accounts`: account lookups and insertion, shared by `Admin` and `Auth`.
- `Admin`: routes/admin.py.
- `Auth`: routes/auth.py.
- `Reviews`: routes/others.py.
- `TokenGate`: utils/decorators.py.
- `Sentiment`: sentiment_service.py.
- Helper modules: `Wrappers`, `Text` (Python string semantics) and `Ordering` (the sorts
  behind `ORDER BY … DESC` and `sorted`).

Parameters stand in for what the code gets from outside:
- the clock (`now`);
- the decoded image size and the detector's boxes;
- the JWT decoder (`TokenGate.Authenticate`'s `decode`);
- the random Google password;
- the installed sentiment predictor, `Option<string -> Option<string>>`.

Schema notes. models.py as given is behind the routes, and the model follows the routes:
- roles are USER, PETUGAS and ADMIN (`Citizen` is USER);
- post status is MENUNGGU, DIPROSES or SELESAI, and new posts start at MENUNGGU;
- province, city and district are optional strings;
- models.py defines no `Review`, so its fields follow how routes/others.py uses it.

## Model

| member | source | states |
|---|---|---|
| Severity.Survivors | utils/ai_helper.py:20-29 | a box is kept exactly when it is in the first result and its first confidence (0 when it has none) is strictly above the threshold |
| Severity.SurvivorsCount | utils/ai_helper.py:22-29 | the number of kept boxes is the number of surviving indices, the independent reference set |
| Severity.AnalyzeSeverity | utils/ai_helper.py:6-61 | count is the number of surviving boxes of the first result; the verdict is AMAN iff count is 0, and then the result is exactly (AMAN, 0); SERIUS iff count > 4 or some surviving box has area/(w·h) > 0.035; the image sides must be positive |
| Severity.GeometrylessBoxCountedNotLarge | utils/ai_helper.py:37-51 | adding a surviving box without geometry raises the count by one and never makes the verdict SERIUS through size |
| Severity.WorkedExamples | utils/ai_helper.py:20-61 | on a 100×100 image: no results → (AMAN,0); one 20×20 at 0.9 → (SERIUS,1); one 10×10 → (TIDAK_SERIUS,1); confidence 0.1 or exactly 0.4 → (AMAN,0); five small → (SERIUS,5); four small → (TIDAK_SERIUS,4) |
| Store.CheckPasswordAcceptsOnlyOriginal | models.py:45-49 | the hash check accepts exactly the password that was set |
| Store.NewUser | models.py:26-49 | a new user has points 0, role USER, and a hash that accepts its password |
| Store.EmptyStateValid | models.py:114-124 | the empty database satisfies the unique constraints and the tally invariant |
| Store.NoVotesCountZero | models.py:81-82 | a post with no vote rows has live counts 0, which are the default tallies |
| Store.OrEmpty | models.py:58-59 | a missing or empty optional text shows as "" and a present one as itself |
| Store.ToUserView | models.py:51-61 | the user dictionary shows the role's value and maps a missing phone or bio to "" |
| Store.UserViewHidesPassword | models.py:51-61 | the user dictionary does not depend on the password hash |
| Store.UploadedBy | models.py:86-88 | a post is attributed to its author's full name, or "Unknown" without an author |
| Store.ToPostView | models.py:90-111 | the post dictionary shows the tallies as valid/false, the author name, and "Lokasi tidak diketahui" for a missing or empty address |
| Store.PostViewShowsLiveTallies | models.py:106-109 | in a valid database the dictionary's valid/false are the live CONFIRM/FALSE counts |
| Text.Lower | routes/posts.py:113 | every ASCII capital becomes its small letter, every other character is kept, the length is unchanged and no capital is left |
| Text.LowerIdempotent | routes/posts.py:291 | a lower-cased string has no upper-case letter and lower-casing it again changes nothing |
| Text.Strip | routes/posts.py:160-162 | `strip` returns a window of the input whose removed ends are all whitespace and whose own ends are not |
| Text.BeforeFirst | routes/auth.py:99 | `split('@')[0]` is the longest prefix without "@" |
| Text.SecondField | utils/decorators.py:17 | `split(" ")[1]` exists exactly when the header has a space, and holds no space |
| Text.SecondFieldOfJoin | utils/decorators.py:17 | the second field of "scheme token…" is the token |
| Text.NatToString | routes/posts.py:75 | decimal rendering is a non-empty string of digits |
| Text.DigitsValueOfNatToString | routes/posts.py:75 | reading back a rendered number gives the number |
| Text.NatToStringInjective | routes/auth.py:105 | different numbers render differently |
| Ordering.InsertByRank | routes/posts.py:116-122 | inserting keeps ranks non-increasing, adds exactly the element, and keeps the list duplicate-free |
| Ordering.SortByRank | routes/posts.py:116-122 | the result lists each id of the set once, ordered by descending rank |
| Ordering.LexLessIrreflexive | routes/posts.py:141-143 | Python string order is irreflexive |
| Ordering.LexLessTransitive | routes/posts.py:141-143 | Python string order is transitive |
| Ordering.LexLessTotal | routes/posts.py:141-143 | any two different strings are ordered one way or the other |
| Ordering.StrictlyIncreasingDistinct | routes/posts.py:141-143 | a strictly increasing list has no duplicates |
| Ordering.InsertString | routes/posts.py:141-143 | inserting a new string into a strictly increasing list keeps it strictly increasing, with exactly one element added |
| Ordering.SortStrings | routes/posts.py:141-143 | `sorted` of a set yields exactly its elements in strictly increasing order |
| Posts.NewPost | routes/posts.py:81-93 | a new post starts with zero tallies and status MENUNGGU |
| Posts.Upload | routes/posts.py:30-99 | the checks run in order (no image; unparseable coordinate; missing coordinate; out of range, inclusive bounds; undecodable image → 400; no detector → 503; zero detections → 406), the first failure wins, and every failure changes nothing; success exactly when all pass and the count is positive |
| Posts.UploadCreatesOnePost | routes/posts.py:75-99 | a successful upload adds one post under the next id, with the classifier's count and verdict, zero tallies and MENUNGGU; it raises only the uploader's points, by exactly 10; votes and reviews do not change |
| Posts.AddPostPreservesValid | routes/posts.py:81-97 | crediting a user and adding a vote-free post keeps the invariant |
| Posts.UploadPreservesValid | routes/posts.py:30-99 | every upload outcome keeps the invariant |
| Posts.CoordinateBoundsInclusive | routes/posts.py:51-52 | ±90/±180 are accepted and values just past them are not |
| Posts.UpsertVote | routes/posts.py:213-225 | afterwards the pair has a row and all its rows carry the new type; an existing row is overwritten in place; other pairs' rows are untouched; one row per pair is kept |
| Posts.UpsertSwitchCounts | routes/posts.py:218-219 | overwriting a vote of the other type moves one unit from the old count to the new one |
| Posts.UpsertFreshCounts | routes/posts.py:220-225 | a first vote adds one to its own type's count and leaves the other unchanged |
| Posts.VerifyPost | routes/posts.py:208-243 | unknown post → 404 with no change; otherwise CONFIRM only for exactly "CONFIRM"; the voter's rows carry that type; the post's tallies are set to and returned as the live counts; no row of another (post, user) pair is changed, removed or added; other posts, users and reviews do not change |
| Posts.CountsOfOtherPostsUnchanged | routes/posts.py:230-234 | a vote on one post leaves every other post's live counts unchanged |
| Posts.VerifyPreservesValid | routes/posts.py:208-243 | voting keeps one row per pair and live tallies on every post |
| Posts.VoteLeavesExactlyOneRow | routes/posts.py:213-225 | after a vote the voter has exactly one row on the post, with the vote's type |
| Posts.VoteIdempotent | routes/posts.py:213-243 | casting the same vote twice gives the same reply and state as once |
| Posts.VoteSwitchMovesOne | routes/posts.py:218-234 | switching a vote moves exactly one unit between the post's tallies |
| Posts.FirstVoteAddsOne | routes/posts.py:220-234 | a voter's first vote raises only its own tally, by one |
| Posts.ConfirmThenFalse | routes/posts.py:208-243 | on a post without votes, CONFIRM then FALSE by one voter returns (0, 1) |
| Posts.ParseStatus | routes/posts.py:293-304 | exactly menunggu, diproses and selesai are accepted |
| Posts.StatusNameRoundTrip | routes/posts.py:291-304 | each status's name, lower-cased or not, parses back to that status |
| Posts.UpdatePostStatus | routes/posts.py:273-311 | a non-PETUGAS/ADMIN actor gets 403 before the lookup; then 404; the lower-cased value must name a status, else 400; success sets only that post's status |
| Posts.AnyStatusToAnyStatus | routes/posts.py:285-306 | staff can set any status on any post, whatever its current status |
| Posts.UpdateStatusPreservesValid | routes/posts.py:273-311 | a status change keeps the invariant |
| Posts.DeletePost | routes/posts.py:251-265 | 404 for an unknown post, then 403 unless admin or owner; success removes the post and exactly its votes, and nothing else |
| Posts.DeletePostPreservesValid | routes/posts.py:251-265 | deleting a post keeps the invariant |
| Posts.SortPosts | routes/posts.py:116-122 | the chosen posts are listed once each, ordered by the feed's ordering |
| Posts.GetPosts | routes/posts.py:106-124 | "trending" lists unfinished posts by confirm+false descending, then newest; "selesai" lists finished posts newest first; any other sort lists all posts newest first |
| Posts.GetPostsByStatus | routes/posts.py:182-200 | all/menunggu/diproses/selesai in any case list the matching posts newest first; anything else is 400 "Status filter tidak valid" |
| Posts.GetPostsByLocation | routes/posts.py:151-175 | a post is listed iff every non-empty stripped parameter is a case-insensitive substring of its column; newest first |
| Posts.EmptyLocationFilterKeepsAll | routes/posts.py:160-171 | a blank parameter strips to "" and filters nothing |
| Posts.DistinctValues | routes/posts.py:136-143 | one location list holds exactly the non-empty values of its column, sorted and without duplicates |
| Posts.GetPostsLocations | routes/posts.py:131-144 | the province, city and district lists are each sorted, duplicate-free, free of empty strings, and hold exactly the values in use |
| Users.ApplyProfile | routes/users.py:31-38 | a profile edit never changes username, email, points or role |
| Users.UpdateProfile | routes/users.py:26-43 | 403 unless editing oneself; a non-empty password under 6 characters is 400 with nothing saved; otherwise exactly the fields sent change, and the password only when a non-empty one is sent |
| Users.UpdateProfilePreservesValid | routes/users.py:26-43 | a profile edit keeps the invariant |
| Users.WithoutUser | routes/users.py:60-76 | removes the target's account and exactly the target's votes, posts and reviews, keeping every other row unchanged |
| Users.DeleteRefusal | routes/users.py:53-75 | self-deletion → 400 for every role, before the role check; a non-admin → 403; an unknown target → 404 "Not Found" (the `get_or_404` of line 75, which aborts before the commit); no refusal exactly for an admin deleting another existing user |
| Users.DeleteUser | routes/users.py:51-79 | the code as written: after the refusals, the target and all its votes, posts and reviews are gone, the acting admin stays, every other user's post, vote and review is kept with the same value, and the id counters do not move |
| Users.DeleteUserRecounting | routes/users.py:51-79 | the corrected deletion: the same replies and removals, then every remaining post's tallies are the live counts |
| Users.DeleteUserRecountingPreservesValid | routes/users.py:51-79 | the corrected deletion keeps the invariant |
| Users.DeleteUserSoundWithoutForeignVotes | routes/users.py:60-77 | when the target voted only on its own posts, the code as written keeps the invariant |
| Users.VoterScenarioValid | routes/users.py:60-77 | the three-user example database satisfies the invariant |
| Users.DeleteUserLeavesStaleTally | routes/users.py:60-77 | deleting a voter as written leaves a tally of 1 with no vote row behind it; the corrected deletion recounts it to 0 |
| Accounts.UserByUsername | routes/auth.py:50 | the lookup finds a user exactly when the username is taken, and finds that user |
| Accounts.UserByEmail | routes/auth.py:91 | the lookup finds a user exactly when the email is taken, and finds that user |
| Accounts.AddUserPreservesValid | models.py:30-31 | adding a user with a free username and email keeps the invariant |
| Accounts.ReplaceUserPreservesValid | models.py:30-31 | rewriting a user keeps the invariant when no other user holds its username or email |
| Admin.ParseRole | routes/admin.py:88-94 | "admin" → ADMIN and "petugas" → PETUGAS in any letter case; anything else → USER |
| Admin.ParseRoleInvertsRoleValue | routes/admin.py:88-94 | every role is parsed back from the value the user dictionary shows for it, in any case |
| Admin.ParseRoleIgnoresCase | routes/admin.py:88 | "ADMIN", "Petugas" and "USER" select ADMIN, PETUGAS and USER |
| Admin.AdminCreateUser | routes/admin.py:65-99 | 403 for non-admins; 400 when username, email, password or full_name is missing; 400 when the username or email is taken, adding nothing; otherwise one user with the parsed role, the given points (default 0) and the defaults for phone and bio, answered with 201 |
| Admin.AdminCreatePreservesValid | routes/admin.py:65-99 | admin creation keeps the invariant |
| Admin.AdminUpdateUser | routes/admin.py:107-138 | 403; 404; a new email, then a new username, that a different user holds → 400; otherwise exactly the fields sent change (an empty password leaves the hash) and no other user changes |
| Admin.AdminUpdatePreservesValid | routes/admin.py:107-138 | the conflict checks keep usernames and emails unique |
| Admin.KeepingOwnIdentityAllowed | routes/admin.py:115-122 | re-sending a user's own email and username is not a conflict |
| Auth.Register | routes/auth.py:17-41 | 400 when a required key is missing; 400 when the username or email is taken, creating nothing; otherwise one USER with 0 points, answered with 201 |
| Auth.RegisterPreservesValid | routes/auth.py:17-41 | registration keeps the invariant |
| Auth.Login | routes/auth.py:48-65 | success exactly for a user with that username whose password checks; an unknown username and a wrong password get the same 401 |
| Auth.RegisterThenLogin | routes/auth.py:17-65 | a freshly registered account logs in with its password and gets its new id |
| Auth.CandidatesDistinct | routes/auth.py:99-106 | the usernames tried (base, base1, base2, …) are pairwise different |
| Auth.NextCandidateIsNew | routes/auth.py:104-106 | each new candidate has not been tried before |
| Auth.FreeUsername | routes/auth.py:99-106 | the search returns the first candidate no user holds; every earlier one is taken |
| Auth.GoogleLogin | routes/auth.py:72-134 | on any database with unique emails: 400 when email, name or google_id is missing; an existing email reuses that user and creates nothing; otherwise a USER with the first free username derived from the email prefix; a database satisfying the invariant still satisfies it afterwards |
| Auth.FirstCandidates | routes/auth.py:99-106 | a free prefix is used as it is, and a taken prefix with a free "prefix1" gets "prefix1" |
| Reviews.AcceptedRating | routes/others.py:63-64 | a rating passes iff it is an integer in 1..5 or `true` (stored as 1) |
| Reviews.CreateReview | routes/others.py:56-80 | an invalid rating is 400 storing nothing; otherwise one review for the actor under the next id, holding the submitted rating (`true` as 1), the comment and the creation time, with a sentiment only when the comment is non-empty and a predictor is installed |
| Reviews.CreateReviewPreservesValid | routes/others.py:56-80 | posting a review keeps the invariant |
| Reviews.RatingBoundaries | routes/others.py:63-64 | 0 and 6 are refused, 1 and 5 accepted, `true` accepted as 1, `false` refused |
| Reviews.Filled | routes/others.py:93-101 | a review with a non-empty comment and no sentiment gets the prediction when it is non-empty and stays unlabelled otherwise; every other review, and every other field, is unchanged |
| Reviews.FilledIdempotent | routes/others.py:93-101 | a second listing with the same predictor changes nothing |
| Reviews.GetReviews | routes/others.py:87-107 | every review is listed once, newest first; each is replaced by its filled form nothing else changes, and the invariant is kept |
| Reviews.DeleteReview | routes/others.py:115-122 | 403 for non-admins, then 404; otherwise exactly that review is removed |
| Reviews.DeleteReviewPreservesValid | routes/others.py:115-122 | deleting a review keeps the invariant |
| TokenGate.Authenticate | utils/decorators.py:10-40 | every refusal is 401: no header or empty token → "Token tidak ditemukan"; no second field → "Format token salah"; expired → "Token kadaluarsa"; invalid → "Token tidak valid"; unknown user → "User tidak valid"; otherwise the handler runs as exactly the decoded user |
| TokenGate.SchemeWordNotChecked | utils/decorators.py:15-38 | "anything token" with a valid token lets the handler run as its user, whatever the first word |
| TokenGate.MalformedHeaders | utils/decorators.py:15-22 | "Bearer" is a format error, and "Bearer " counts as no token |
| Sentiment.LastWithClasses | sentiment_service.py:55-70 | the search finds the classes of the last step that has any, and finds none only when no step has any |
| Sentiment.FoundClasses | sentiment_service.py:49-70 | the model's own classes come first, then named steps, then steps; a model with named steps is never searched by steps |
| Sentiment.Load | sentiment_service.py:9-84 | a failed load has no model and no classes; with no classes found, the default [negatif, positif] is used; with fewer than two found, the model is dropped |
| Sentiment.LoadedAnalyzerHasTwoLowerLabels | sentiment_service.py:16-84 | an analyzer that kept its model has at least two labels, all lower case |
| Sentiment.Trunc | sentiment_service.py:112 | `int()` truncates toward zero |
| Sentiment.PyIndexFromEnd | sentiment_service.py:113-114 | a negative index names the element `len` places later, -1 is the last element, and one step past either end fails |
| Sentiment.Predict | sentiment_service.py:86-123 | None without a model or `predict`; a string label lower-cased; a number indexes the non-empty class list when below its length, a negative one counting from the end and one before the start giving None (the caught `IndexError`), otherwise gives "positif" for 1 and "negatif" otherwise; other values and exceptions give None |
| Sentiment.DefaultMapping | sentiment_service.py:84-117 | with the default classes, 0 → negatif and 1 (also 1.7) → positif |
| Sentiment.LoadedPredictionsAreLowerLabels | sentiment_service.py:73-117 | a loaded analyzer only predicts lower-case labels, and an in-range index yields one of its classes |
| Sentiment.LoadedFallbackIsNegatif | sentiment_service.py:113-117 | for a loaded analyzer, an index past the classes always yields "negatif" |
| Sentiment.PredictSentiment | sentiment_service.py:146-158 | None while no analyzer is initialised; otherwise the analyzer's prediction |

## Left out

- Image decoding, detector inference and the upload file's write or removal (upload_post, delete_post, delete_user). Decoding failure, the image size and the detector's boxes are parameters.
- JWT: encoding and the six-hour expiry are not modelled, and decoding is the parameter `decode`. Login and Google login answer with the user id the token would carry.
- Password hashing: `generate_password_hash`/`check_password_hash` are foreign code. A hash is modelled as the password it accepts.
- Auth.Login: a body without a password reaches the hash check with None. That library is not part of this model, and the model answers 401.
- Concurrency: `verify_post` commits the upsert and the recount separately. Each request is one atomic step.
- Floating point: confidences, areas and coordinates are exact reals. The Numeric(10,8) column rounding and the `float()` in `to_dict` are not modelled.
- Dates and URLs: the dashboard statistics (routes/admin.py:15-57), post date formatting and the image URL host are not modelled.
- Posts.GetPostsByLocation: `%` and `_` inside a parameter act as LIKE wildcards in the database. The model treats them as plain characters.
- Text.Lower: folds ASCII letters only. Python's `lower` and the database's ILIKE also fold other scripts.
- Non-string JSON values where the code calls `.lower()` or `len()` (status, role, password) raise server errors. Missing JSON bodies are not modelled either.
- Admin.AdminCreateUser: `int()` of a non-numeric points value raises. Points are modelled as an already-converted optional integer.
- Sentiment.FoundClasses: `str()` of non-string class labels is taken as already applied. Labels are given as strings.
- Model loading: unpickling and `init_analyzer`'s file probing are not modelled. `Sentiment.Load` receives the unpickled model, or None when loading failed.
- Reviews.GetReviews: an exception raised by the predictor is modelled as a None prediction, which the handler also skips.
- Ties in `ORDER BY created_at DESC`: the database's order among equal timestamps is unspecified, and so is the model's.
- Users.DeleteUser: ids are modelled as never reused (the counters only grow), and the as-written deletion follows a database without foreign-key checks. Other users' votes on the deleted user's posts stay in the table and reach no post. Under MySQL, which enforces the vote table's foreign key to posts, that request instead fails with a 500 and is rolled back; under SQLite without AUTOINCREMENT a later post may reuse the deleted id and inherit those rows. Neither outcome is modelled.
- Posts.DistinctValues, Posts.GetPostsLocations: `DISTINCT` is modelled as exact string comparison, as SQLite does it. Under MySQL's default case-insensitive collation "Jawa Barat" and "JAWA BARAT" come back as one entry, where the model lists both.
- Accounts.UserByUsername, Accounts.UserByEmail: usernames and emails are compared exactly, as the SQLite database does. Under MySQL's default case-insensitive collation, which also governs the unique indexes, "Alice" and "alice" clash, so registering one when the other exists is a 400 there and a 201 in the model.
- Migration and scripts (routes/admin.py:144-213, fix_status_enum.py, reanalyze_reviews.py), the chatbot and RAG pipeline, `/api/chat`, app wiring and configuration, the static upload route, and the read-only profile and user-list endpoints are not part of this model.

## Findings

| source | as written | input that shows it | evidently intended | confidence | as-written member | corrected member |
|---|---|---|---|---|---|---|
| routes/users.py:60-77 | `delete_user` deletes the target's vote rows but does not recompute `confirm_count`/`false_count` of the posts those votes were on | admin 1 deletes user 3, who had confirmed post 1 of user 2: post 1 keeps `confirm_count` 1 with no CONFIRM row left | recount the tallies of the surviving posts, as `verify_post` does after every vote | high, not executed | Users.DeleteUser, Users.DeleteUserLeavesStaleTally | Users.DeleteUserRecounting, Users.DeleteUserRecountingPreservesValid |

=== FILE: accounts.dfy ===
/** Account lookups and insertion shared by the admin and auth handlers: the username and
    email queries they issue and the unique columns those queries protect. */
module Accounts {
  import opened Wrappers
  import opened Store

  predicate UsernameTaken(users: map<nat, User>, name: string) {
    exists id :: id in users && users[id].username == name
  }

  predicate EmailTaken(users: map<nat, User>, email: string) {
    exists id :: id in users && users[id].email == email
  }

  /** `User.query.filter_by(username=...).first()`; the unique column makes the row unique. */
  function UserByUsername(users: map<nat, User>, name: string): (r: Option<nat>)
    requires UniqueUsernames(users)
    ensures r.Some? <==> UsernameTaken(users, name)
    ensures r.Some? ==> r.value in users && users[r.value].username == name
  {
    if UsernameTaken(users, name) then
      var id :| id in users && users[id].username == name;
      Some(id)
    else None
  }

  /** `User.query.filter_by(email=...).first()`. */
  function UserByEmail(users: map<nat, User>, email: string): (r: Option<nat>)
    requires UniqueEmails(users)
    ensures r.Some? <==> EmailTaken(users, email)
    ensures r.Some? ==> r.value in users && users[r.value].email == email
  {
    if EmailTaken(users, email) then
      var id :| id in users && users[id].email == email;
      Some(id)
    else None
  }

  /** Inserts a user under the next user id. */
  function AddUser(s: State, u: User): (r: State)
    ensures r.users == s.users[s.nextUserId := u]
    ensures r.nextUserId == s.nextUserId + 1
    ensures r == s.(users := r.users, nextUserId := r.nextUserId)
  {
    s.(users := s.users[s.nextUserId := u], nextUserId := s.nextUserId + 1)
  }

  /** Adding a user whose username and email are both free keeps the database invariant. */
  lemma AddUserPreservesValid(s: State, u: User)
    requires Valid(s)
    requires !UsernameTaken(s.users, u.username) && !EmailTaken(s.users, u.email)
    ensures Valid(AddUser(s, u))
  {
    assert s.nextUserId !in s.users;
  }

  /** Replacing a user's row keeps the invariant when no other user holds its new username
      or email. */
  lemma ReplaceUserPreservesValid(s: State, id: nat, u: User)
    requires Valid(s) && id in s.users
    requires forall other :: other in s.users && other != id ==> s.users[other].username != u.username
    requires forall other :: other in s.users && other != id ==> s.users[other].email != u.email
    ensures Valid(s.(users := s.users[id := u]))
  {
  }
}

=== FILE: admin.dfy ===
/** The user-management handlers of routes/admin.py: creating and updating accounts. */
module Admin {
  import opened Wrappers
  import opened Store
  import opened Accounts
  import Text

  /** The role an input names, case-insensitively: "admin", "petugas", and USER for
      anything else. */
  function ParseRole(input: string): (r: Role)
    ensures r == Admin <==> Text.Lower(input) == "admin"
    ensures r == Petugas <==> Text.Lower(input) == "petugas"
    ensures r == Citizen <==> Text.Lower(input) != "admin" && Text.Lower(input) != "petugas"
  {
    var k := Text.Lower(input);
    if k == "admin" then Admin else if k == "petugas" then Petugas else Citizen
  }

  /** Every role is parsed back from the value `to_dict` shows for it, in any letter case. */
  lemma ParseRoleInvertsRoleValue(r: Role, shown: string)
    requires Text.Lower(shown) == RoleValue(r)
    ensures ParseRole(shown) == r
    ensures ParseRole(RoleValue(r)) == r
  {
    Text.LowerIdempotent(shown);
  }

  /** Upper-case role names select the same role. */
  lemma ParseRoleIgnoresCase()
    ensures ParseRole("ADMIN") == Admin && ParseRole("Petugas") == Petugas && ParseRole("USER") == Citizen
  {
    assert Text.Lower("ADMIN") == "admin";
    assert Text.Lower("Petugas") == "petugas";
  }

  /** The JSON body of a create request; absent keys are None. */
  datatype CreateForm = CreateForm(
    username: Option<string>,
    email: Option<string>,
    password: Option<string>,
    fullName: Option<string>,
    phone: Option<string>,
    bio: Option<string>,
    points: Option<int>,
    role: Option<string>)

  predicate CreateFormComplete(f: CreateForm) {
    f.username.Some? && f.email.Some? && f.password.Some? && f.fullName.Some?
  }

  /** `admin_create_user`: admins only; the four required keys; a free username and email;
      then a user with the requested role (USER by default), the given points (0 by default),
      phone "" and bio "Dibuat oleh Admin" by default. */
  function AdminCreateUser(s: State, actor: nat, f: CreateForm): (r: Step<UserView>)
    requires actor in s.users
    ensures r.reply.Err? ==> r.state == s
    ensures s.users[actor].role != Admin ==>
              r.reply == Err(403, "Akses ditolak. Hanya admin yang bisa membuat user.")
    ensures s.users[actor].role == Admin && !CreateFormComplete(f) ==>
              r.reply == Err(400, "Data tidak lengkap.")
    ensures s.users[actor].role == Admin && CreateFormComplete(f)
            && (UsernameTaken(s.users, f.username.value) || EmailTaken(s.users, f.email.value)) ==>
              r.reply == Err(400, "Username atau Email sudah terpakai")
    ensures r.reply.Ok? <==>
              s.users[actor].role == Admin && CreateFormComplete(f)
              && !UsernameTaken(s.users, f.username.value) && !EmailTaken(s.users, f.email.value)
    ensures r.reply.Ok? ==> s.nextUserId in r.state.users
    ensures r.reply.Ok? ==>
              var u := r.state.users[s.nextUserId];
              && r.state == AddUser(s, u)
              && u.username == f.username.value && u.email == f.email.value && u.fullName == f.fullName.value
              && CheckPassword(u.passwordHash, f.password.value)
              && u.points == f.points.GetOr(0)
              && u.role == ParseRole(f.role.GetOr("user"))
              && u.phone == Some(f.phone.GetOr("")) && u.bio == Some(f.bio.GetOr("Dibuat oleh Admin"))
              && r.reply == Ok(201, ToUserView(s.nextUserId, u))
  {
    if s.users[actor].role != Admin then
      Step(Err(403, "Akses ditolak. Hanya admin yang bisa membuat user."), s)
    else if !CreateFormComplete(f) then Step(Err(400, "Data tidak lengkap."), s)
    else if UsernameTaken(s.users, f.username.value) || EmailTaken(s.users, f.email.value) then
      Step(Err(400, "Username atau Email sudah terpakai"), s)
    else
      var u := NewUser(f.username.value, f.email.value, f.fullName.value, f.password.value,
                       Some(f.phone.GetOr("")), Some(f.bio.GetOr("Dibuat oleh Admin")))
                 .(points := f.points.GetOr(0), role := ParseRole(f.role.GetOr("user")));
      Step(Ok(201, ToUserView(s.nextUserId, u)), AddUser(s, u))
  }

  lemma AdminCreatePreservesValid(s: State, actor: nat, f: CreateForm)
    requires Valid(s) && actor in s.users
    ensures Valid(AdminCreateUser(s, actor, f).state)
  {
    var r := AdminCreateUser(s, actor, f);
    if r.reply.Ok? {
      AddUserPreservesValid(s, r.state.users[s.nextUserId]);
    }
  }

  /** The JSON body of an update request; absent keys are None. */
  datatype UpdateForm = UpdateForm(
    fullName: Option<string>,
    email: Option<string>,
    username: Option<string>,
    phone: Option<string>,
    bio: Option<string>,
    role: Option<string>,
    password: Option<string>,
    points: Option<int>)

  /** Some user other than `id` has this email. */
  predicate EmailHeldByOther(users: map<nat, User>, id: nat, email: string) {
    exists other :: other in users && other != id && users[other].email == email
  }

  predicate UsernameHeldByOther(users: map<nat, User>, id: nat, name: string) {
    exists other :: other in users && other != id && users[other].username == name
  }

  function ApplyUpdate(u: User, f: UpdateForm): User {
    u.(fullName := f.fullName.GetOr(u.fullName),
       email := f.email.GetOr(u.email),
       username := f.username.GetOr(u.username),
       phone := if f.phone.Some? then f.phone else u.phone,
       bio := if f.bio.Some? then f.bio else u.bio,
       role := if f.role.Some? then ParseRole(f.role.value) else u.role,
       passwordHash := if f.password.Some? && f.password.value != "" then HashPassword(f.password.value) else u.passwordHash,
       points := f.points.GetOr(u.points))
  }

  /** `admin_update_user`: admins only; an unknown target is a 404; a new email, then a new
      username, must not belong to a different user; then exactly the fields sent change (an
      empty password excepted) and no other user changes. */
  function AdminUpdateUser(s: State, actor: nat, target: nat, f: UpdateForm): (r: Step<UserView>)
    requires actor in s.users
    ensures r.reply.Err? ==> r.state == s
    ensures s.users[actor].role != Admin ==> r.reply == Err(403, "Akses ditolak")
    ensures s.users[actor].role == Admin && target !in s.users ==> r.reply.code == 404
    ensures s.users[actor].role == Admin && target in s.users && f.email.Some?
            && EmailHeldByOther(s.users, target, f.email.value) ==>
              r.reply == Err(400, "Email sudah digunakan")
    ensures s.users[actor].role == Admin && target in s.users
            && !(f.email.Some? && EmailHeldByOther(s.users, target, f.email.value))
            && f.username.Some? && UsernameHeldByOther(s.users, target, f.username.value) ==>
              r.reply == Err(400, "Username sudah digunakan")
    ensures r.reply.Ok? <==>
              s.users[actor].role == Admin && target in s.users
              && !(f.email.Some? && EmailHeldByOther(s.users, target, f.email.value))
              && !(f.username.Some? && UsernameHeldByOther(s.users, target, f.username.value))
    ensures r.reply.Ok? ==> target in r.state.users
    ensures r.reply.Ok? ==>
              var u := s.users[target];
              var u' := r.state.users[target];
              && r.state == s.(users := s.users[target := u'])
              && u'.fullName == f.fullName.GetOr(u.fullName)
              && u'.email == f.email.GetOr(u.email)
              && u'.username == f.username.GetOr(u.username)
              && (f.phone.Some? ==> u'.phone == f.phone) && (f.phone.None? ==> u'.phone == u.phone)
              && (f.bio.Some? ==> u'.bio == f.bio) && (f.bio.None? ==> u'.bio == u.bio)
              && (f.role.Some? ==> u'.role == ParseRole(f.role.value)) && (f.role.None? ==> u'.role == u.role)
              && (f.password.Some? && f.password.value != "" ==>
                    forall pw :: CheckPassword(u'.passwordHash, pw) <==> pw == f.password.value)
              && (f.password.None? || f.password.value == "" ==> u'.passwordHash == u.passwordHash)
              && u'.points == f.points.GetOr(u.points)
              && r.reply == Ok(200, ToUserView(target, u'))
  {
    if s.users[actor].role != Admin then Step(Err(403, "Akses ditolak"), s)
    else if target !in s.users then Step(Err(404, "Not Found"), s)
    else if f.email.Some? && EmailHeldByOther(s.users, target, f.email.value) then
      Step(Err(400, "Email sudah digunakan"), s)
    else if f.username.Some? && UsernameHeldByOther(s.users, target, f.username.value) then
      Step(Err(400, "Username sudah digunakan"), s)
    else
      var u' := ApplyUpdate(s.users[target], f);
      Step(Ok(200, ToUserView(target, u')), s.(users := s.users[target := u']))
  }

  /** The update's conflict checks are exactly what keeps usernames and emails unique. */
  lemma AdminUpdatePreservesValid(s: State, actor: nat, target: nat, f: UpdateForm)
    requires Valid(s) && actor in s.users
    ensures Valid(AdminUpdateUser(s, actor, target, f).state)
  {
    var r := AdminUpdateUser(s, actor, target, f);
    if r.reply.Ok? {
      ReplaceUserPreservesValid(s, target, r.state.users[target]);
    }
  }

  /** Re-sending a user's own email and username is not a conflict. */
  lemma KeepingOwnIdentityAllowed(s: State, actor: nat, target: nat)
    requires Valid(s) && actor in s.users && s.users[actor].role == Admin && target in s.users
    ensures var f := UpdateForm(None, Some(s.users[target].email), Some(s.users[target].username),
                                None, None, None, None, None);
            AdminUpdateUser(s, actor, target, f).reply.Ok?
  {
  }
}

=== FILE: auth.dfy ===
/** The sign-in handlers of routes/auth.py: registration, password login and Google login.
    Token issuing is left to the caller: a successful login answers with the user id the
    token would carry. */
module Auth {
  import opened Wrappers
  import opened Store
  import opened Accounts
  import Text

  // ================================================================ register

  /** The JSON body of `register`; absent keys are None. */
  datatype RegisterForm = RegisterForm(
    username: Option<string>,
    email: Option<string>,
    password: Option<string>,
    fullName: Option<string>,
    phone: Option<string>,
    bio: Option<string>)

  predicate RegisterFormComplete(f: RegisterForm) {
    f.username.Some? && f.email.Some? && f.password.Some? && f.fullName.Some?
  }

  /** `register`: the four required keys, then a free username and email; the new account
      is a USER with zero points, phone "" and bio "Pengguna baru" unless given. */
  function Register(s: State, f: RegisterForm): (r: Step<UserView>)
    ensures r.reply.Err? ==> r.state == s
    ensures !RegisterFormComplete(f) ==> r.reply == Err(400, "Data tidak lengkap")
    ensures RegisterFormComplete(f)
            && (UsernameTaken(s.users, f.username.value) || EmailTaken(s.users, f.email.value)) ==>
              r.reply == Err(400, "Username atau Email sudah terpakai")
    ensures r.reply.Ok? <==>
              RegisterFormComplete(f) && !UsernameTaken(s.users, f.username.value) && !EmailTaken(s.users, f.email.value)
    ensures r.reply.Ok? ==> s.nextUserId in r.state.users
    ensures r.reply.Ok? ==>
              var u := r.state.users[s.nextUserId];
              && r.state == AddUser(s, u)
              && u.username == f.username.value && u.email == f.email.value && u.fullName == f.fullName.value
              && CheckPassword(u.passwordHash, f.password.value)
              && u.role == Citizen && u.points == 0
              && u.phone == Some(f.phone.GetOr("")) && u.bio == Some(f.bio.GetOr("Pengguna baru"))
              && r.reply == Ok(201, ToUserView(s.nextUserId, u))
  {
    if !RegisterFormComplete(f) then Step(Err(400, "Data tidak lengkap"), s)
    else if UsernameTaken(s.users, f.username.value) || EmailTaken(s.users, f.email.value) then
      Step(Err(400, "Username atau Email sudah terpakai"), s)
    else
      var u := NewUser(f.username.value, f.email.value, f.fullName.value, f.password.value,
                       Some(f.phone.GetOr("")), Some(f.bio.GetOr("Pengguna baru")));
      Step(Ok(201, ToUserView(s.nextUserId, u)), AddUser(s, u))
  }

  lemma RegisterPreservesValid(s: State, f: RegisterForm)
    requires Valid(s)
    ensures Valid(Register(s, f).state)
  {
    var r := Register(s, f);
    if r.reply.Ok? {
      AddUserPreservesValid(s, r.state.users[s.nextUserId]);
    }
  }

  // ================================================================ login

  /** `login`: the user with that username whose password checks out; an unknown username
      and a wrong password get the same 401. */
  function Login(s: State, username: Option<string>, password: Option<string>): (r: Reply<nat>)
    requires UniqueUsernames(s.users)
    ensures r.Err? ==> r == Err(401, "Username atau password salah")
    ensures r.Ok? <==>
              username.Some? && password.Some?
              && exists id :: id in s.users && s.users[id].username == username.value
                              && CheckPassword(s.users[id].passwordHash, password.value)
    ensures r.Ok? ==>
              && r.code == 200 && r.value in s.users
              && s.users[r.value].username == username.value
              && CheckPassword(s.users[r.value].passwordHash, password.value)
  {
    var found := if username.Some? then UserByUsername(s.users, username.value) else None;
    if found.None? || password.None? || !CheckPassword(s.users[found.value].passwordHash, password.value) then
      Err(401, "Username atau password salah")
    else Ok(200, found.value)
  }

  /** A freshly registered account can log in with the password it registered with. */
  lemma RegisterThenLogin(s: State, f: RegisterForm)
    requires Valid(s)
    requires Register(s, f).reply.Ok?
    ensures UniqueUsernames(Register(s, f).state.users)
    ensures Login(Register(s, f).state, f.username, f.password) == Ok(200, s.nextUserId)
  {
    RegisterPreservesValid(s, f);
  }

  // ================================================================ Google login

  /** The k-th username tried for a Google account: the base itself, then base1, base2, ... */
  function Candidate(base: string, k: nat): string {
    if k == 0 then base else base + Text.NatToString(k)
  }

  /** Different attempts try different usernames, so the search cannot revisit a name. */
  lemma CandidatesDistinct(base: string, j: nat, k: nat)
    requires j != k
    ensures Candidate(base, j) != Candidate(base, k)
  {
    if j != 0 && k != 0 && Candidate(base, j) == Candidate(base, k) {
      var a := Text.NatToString(j);
      var b := Text.NatToString(k);
      assert (base + a)[|base|..] == a;
      assert (base + b)[|base|..] == b;
      Text.NatToStringInjective(j, k);
    }
  }

  function TriedNames(base: string, k: nat): set<string> {
    set j | 0 <= j < k :: Candidate(base, j)
  }

  /** The k-th candidate is not among the first k, and adding it gives the first k+1. */
  lemma NextCandidateIsNew(base: string, k: nat, seen: set<string>)
    requires seen == TriedNames(base, k)
    ensures Candidate(base, k) !in seen
    ensures seen + {Candidate(base, k)} == TriedNames(base, k + 1)
  {
    forall j | 0 <= j < k
      ensures Candidate(base, j) != Candidate(base, k)
    {
      CandidatesDistinct(base, j, k);
    }
  }

  predicate NamesTaken(users: map<nat, User>, base: string, k: nat) {
    forall j :: 0 <= j < k ==> UsernameTaken(users, Candidate(base, j))
  }

  /** One step of the username search: when the k-th candidate is taken, the first k+1
      candidates are all taken and the set of taken names still untried shrinks. */
  lemma SearchStep(users: map<nat, User>, base: string, k: nat, seen: set<string>, taken: set<string>)
    requires taken == set id | id in users :: users[id].username
    requires NamesTaken(users, base, k) && seen == TriedNames(base, k) && seen <= taken
    requires UsernameTaken(users, Candidate(base, k))
    ensures NamesTaken(users, base, k + 1)
    ensures seen + {Candidate(base, k)} == TriedNames(base, k + 1)
    ensures seen + {Candidate(base, k)} <= taken
    ensures |taken - (seen + {Candidate(base, k)})| < |taken - seen|
  {
    var name := Candidate(base, k);
    NextCandidateIsNew(base, k, seen);
    var id :| id in users && users[id].username == name;
    assert name in taken;
    assert taken - (seen + {name}) == (taken - seen) - {name};
  }

  /** The username search of `google_login`: the first of base, base1, base2, ... that no
      user holds. */
  method FreeUsername(users: map<nat, User>, base: string) returns (name: string, k: nat)
    ensures name == Candidate(base, k)
    ensures !UsernameTaken(users, name)
    ensures NamesTaken(users, base, k)
  {
    ghost var taken := set id | id in users :: users[id].username;
    ghost var seen: set<string> := {};
    name := base;
    k := 0;
    while UsernameTaken(users, name)
      invariant name == Candidate(base, k)
      invariant NamesTaken(users, base, k)
      invariant seen == TriedNames(base, k)
      invariant seen <= taken
      decreases |taken - seen|
    {
      SearchStep(users, base, k, seen, taken);
      seen := seen + {name};
      k := k + 1;
      name := Candidate(base, k);
    }
  }

  /** The JSON body of `google_login`; absent keys are None. */
  datatype GoogleForm = GoogleForm(email: Option<string>, name: Option<string>, googleId: Option<string>)

  /** `google_login`: the three keys are required; an existing email signs that user in and
      creates nothing; otherwise a USER is created with the first free username derived from
      the part of the email before the first "@", and the random password given. */
  method GoogleLogin(s: State, f: GoogleForm, randomPassword: string) returns (r: Step<nat>)
    requires UniqueEmails(s.users)
    ensures Valid(s) ==> Valid(r.state)
    ensures r.reply.Err? <==> f.email.None? || f.name.None? || f.googleId.None?
    ensures r.reply.Err? ==> r.reply == Err(400, "Data Google tidak lengkap") && r.state == s
    ensures r.reply.Ok? && EmailTaken(s.users, f.email.value) ==>
              && r.state == s && r.reply.code == 200
              && r.reply.value in s.users && s.users[r.reply.value].email == f.email.value
    ensures r.reply.Ok? && !EmailTaken(s.users, f.email.value) ==>
              && r.reply == Ok(200, s.nextUserId)
              && s.nextUserId in r.state.users
              && var u := r.state.users[s.nextUserId];
              && r.state == AddUser(s, u)
              && u.email == f.email.value && u.fullName == f.name.value
              && u.role == Citizen && u.points == 0
              && u.phone == Some("") && u.bio == Some("Login via Google")
              && CheckPassword(u.passwordHash, randomPassword)
              && !UsernameTaken(s.users, u.username)
              && exists k :: u.username == Candidate(Text.BeforeFirst(f.email.value, '@'), k)
                             && NamesTaken(s.users, Text.BeforeFirst(f.email.value, '@'), k)
  {
    if f.email.None? || f.name.None? || f.googleId.None? {
      return Step(Err(400, "Data Google tidak lengkap"), s);
    }
    var existing := UserByEmail(s.users, f.email.value);
    if existing.Some? {
      return Step(Ok(200, existing.value), s);
    }
    var base := Text.BeforeFirst(f.email.value, '@');
    var name, k := FreeUsername(s.users, base);
    var u := NewUser(name, f.email.value, f.name.value, randomPassword, Some(""), Some("Login via Google"));
    if Valid(s) {
      AddUserPreservesValid(s, u);
    }
    r := Step(Ok(200, s.nextUserId), AddUser(s, u));
  }

  /** When the email's prefix is free it is the username; when only the prefix is taken the
      username gets the suffix 1. */
  lemma FirstCandidates(users: map<nat, User>, base: string)
    ensures !UsernameTaken(users, base) ==> NamesTaken(users, base, 0) && Candidate(base, 0) == base
    ensures UsernameTaken(users, base) && !UsernameTaken(users, base + "1") ==>
              NamesTaken(users, base, 1) && Candidate(base, 1) == base + "1"
  {
    assert Text.NatToString(1) == "1";
  }
}

=== FILE: ordering.dfy ===
/** Orderings used by the list endpoints: descending by a two-level rank (SQL
    `ORDER BY a DESC, b DESC`) and ascending code-point order on strings (Python `sorted`). */
module Ordering {

  /** Two sort keys, compared lexicographically. */
  datatype Rank = Rank(primary: int, secondary: int)

  predicate RankGeq(a: Rank, b: Rank) {
    a.primary > b.primary || (a.primary == b.primary && a.secondary >= b.secondary)
  }

  predicate Distinct<T(==)>(s: seq<T>) {
    forall i, j :: 0 <= i < j < |s| ==> s[i] != s[j]
  }

  /** Every id has a rank and ranks never increase along the sequence. */
  predicate SortedByRank(ids: seq<nat>, rank: map<nat, Rank>) {
    && (forall i :: 0 <= i < |ids| ==> ids[i] in rank)
    && (forall i, j :: 0 <= i < j < |ids| ==> RankGeq(rank[ids[i]], rank[ids[j]]))
  }

  /** Inserts `x` before the first element it ranks at or above. */
  function InsertByRank(r: seq<nat>, x: nat, rank: map<nat, Rank>): (q: seq<nat>)
    requires x in rank && SortedByRank(r, rank)
    ensures SortedByRank(q, rank)
    ensures forall y :: y in q <==> y in r || y == x
    ensures x !in r && Distinct(r) ==> Distinct(q)
  {
    if |r| == 0 then [x]
    else if RankGeq(rank[x], rank[r[0]]) then [x] + r
    else
      var tail := InsertByRank(r[1..], x, rank);
      assert forall y :: y in tail ==> RankGeq(rank[r[0]], rank[y]);
      assert x !in r && Distinct(r) ==> r[0] !in tail;
      [r[0]] + tail
  }

  /** Orders a set of ids by descending rank; ties come out in no particular order. */
  method SortByRank(ids: set<nat>, rank: map<nat, Rank>) returns (r: seq<nat>)
    requires ids <= rank.Keys
    ensures forall y :: y in r <==> y in ids
    ensures Distinct(r)
    ensures SortedByRank(r, rank)
  {
    r := [];
    var rest := ids;
    while rest != {}
      invariant rest <= ids
      invariant forall y :: y in r <==> y in ids && y !in rest
      invariant Distinct(r)
      invariant SortedByRank(r, rank)
      decreases rest
    {
      var x :| x in rest;
      r := InsertByRank(r, x, rank);
      rest := rest - {x};
    }
  }

  /** Python's string `<`: code-point order, a proper prefix before its extensions. */
  predicate LexLess(a: string, b: string)
    decreases |a|
  {
    if |a| == 0 then |b| > 0
    else if |b| == 0 then false
    else if a[0] == b[0] then LexLess(a[1..], b[1..])
    else a[0] < b[0]
  }

  lemma {:induction false} LexLessIrreflexive(a: string)
    ensures !LexLess(a, a)
    decreases |a|
  {
    if |a| > 0 {
      LexLessIrreflexive(a[1..]);
    }
  }

  lemma {:induction false} LexLessTransitive(a: string, b: string, c: string)
    requires LexLess(a, b) && LexLess(b, c)
    ensures LexLess(a, c)
    decreases |a|
  {
    if |a| > 0 && a[0] == b[0] && b[0] == c[0] {
      LexLessTransitive(a[1..], b[1..], c[1..]);
    }
  }

  lemma {:induction false} LexLessTotal(a: string, b: string)
    requires a != b
    ensures LexLess(a, b) || LexLess(b, a)
    decreases |a|
  {
    if |a| > 0 && |b| > 0 && a[0] == b[0] {
      assert a == [a[0]] + a[1..] && b == [b[0]] + b[1..];
      LexLessTotal(a[1..], b[1..]);
    }
  }

  predicate StrictlyIncreasing(s: seq<string>) {
    forall i, j :: 0 <= i < j < |s| ==> LexLess(s[i], s[j])
  }

  /** A strictly increasing sequence has no repeated element. */
  lemma StrictlyIncreasingDistinct(s: seq<string>)
    requires StrictlyIncreasing(s)
    ensures Distinct(s)
  {
    forall i, j | 0 <= i < j < |s|
      ensures s[i] != s[j]
    {
      if s[i] == s[j] {
        LexLessIrreflexive(s[i]);
      }
    }
  }

  /** Inserts a new string at its place in a strictly increasing sequence. */
  function InsertString(r: seq<string>, x: string): (q: seq<string>)
    requires StrictlyIncreasing(r) && x !in r
    ensures StrictlyIncreasing(q)
    ensures forall y :: y in q <==> y in r || y == x
  {
    if |r| == 0 then [x]
    else if LexLess(x, r[0]) then
      assert forall j :: 0 <= j < |r| ==> LexLess(x, r[j]) by {
        forall j | 0 < j < |r|
          ensures LexLess(x, r[j])
        {
          LexLessTransitive(x, r[0], r[j]);
        }
      }
      [x] + r
    else
      LexLessTotal(x, r[0]);
      var tail := InsertString(r[1..], x);
      assert forall y :: y in tail ==> LexLess(r[0], y);
      var q := [r[0]] + tail;
      assert forall j :: 0 < j < |q| ==> q[j] == tail[j - 1];
      q
  }

  /** Python `sorted(...)` of a set of strings: strictly increasing, the same elements. */
  method SortStrings(xs: set<string>) returns (r: seq<string>)
    ensures forall y :: y in r <==> y in xs
    ensures StrictlyIncreasing(r)
  {
    r := [];
    var rest := xs;
    while rest != {}
      invariant rest <= xs
      invariant forall y :: y in r <==> y in xs && y !in rest
      invariant StrictlyIncreasing(r)
      decreases rest
    {
      var x :| x in rest;
      r := InsertString(r, x);
      rest := rest - {x};
    }
  }
}

=== FILE: posts.dfy ===
/** The report handlers of routes/posts.py: upload, the community vote, the staff status
    setter, deletion, and the feed, status, location and location-list queries. */
module Posts {
  import opened Wrappers
  import opened Store
  import Text
  import Severity
  import Ordering

  // ================================================================ upload

  /** A coordinate form field as `float(x) if x else None` sees it: absent or empty, not a
      number (`ValueError`), a non-finite float (`nan`, `inf`), or a finite number. */
  datatype Coord = Missing | Malformed | NonFinite | Number(value: real)

  datatype UploadForm = UploadForm(
    hasImage: bool,
    latitude: Coord,
    longitude: Coord,
    address: Option<string>,
    province: Option<string>,
    city: Option<string>,
    district: Option<string>)

  /** A decoded image: only its size matters to the handler. */
  datatype Image = Image(width: int, height: int)

  const UploadPoints: int := 10
  const DefaultAddress: string := "Tidak diketahui"

  /** Both bounds are inclusive. */
  predicate InRange(lat: real, lng: real) {
    -90.0 <= lat <= 90.0 && -180.0 <= lng <= 180.0
  }

  /** Both coordinates parsed to finite numbers inside their ranges. */
  predicate CoordinatesAccepted(form: UploadForm) {
    form.latitude.Number? && form.longitude.Number?
    && InRange(form.latitude.value, form.longitude.value)
  }

  /** The name the uploaded file is stored under: `<seconds>_<user id>.jpg`. */
  function ImageName(now: nat, actor: nat): string {
    Text.NatToString(now) + "_" + Text.NatToString(actor) + ".jpg"
  }

  function StoredSeverity(v: Severity.Verdict): SeverityLabel {
    if v == Severity.Serius then Serius else TidakSerius
  }

  /** The post an accepted upload creates. */
  function NewPost(actor: nat, form: UploadForm, a: Severity.Assessment, now: nat): (p: Post)
    requires CoordinatesAccepted(form)
    ensures p.confirmCount == 0 && p.falseCount == 0 && p.status == Menunggu
  {
    var sev := StoredSeverity(a.severity);
    Post(actor, ImageName(now, actor), form.latitude.value, form.longitude.value,
         Some(form.address.GetOr(DefaultAddress)),
         Some(form.province.GetOr("")), Some(form.city.GetOr("")), Some(form.district.GetOr("")),
         a.count, sev,
         Some("Terdeteksi " + Text.NatToString(a.count) + " lubang (" + SeverityName(sev) + ")"),
         0, 0, Menunggu, now)
  }

  /** `upload_post`. `image` is the decoder's output (None when the bytes do not decode),
      `detector` is the detector's result list (None when no detector is loaded), `now` the clock.
      The checks run in a fixed order and the first failure wins; every failure leaves the
      state as it was; only an upload with at least one surviving detection creates a post,
      with the classifier's count and severity, and credits the uploader with ten points. */
  function Upload(s: State, actor: nat, form: UploadForm, image: Option<Image>,
                  detector: Option<seq<Severity.DetectionResult>>, now: nat): (r: Step<PostView>)
    requires actor in s.users
    requires image.Some? ==> image.value.width > 0 && image.value.height > 0
    ensures r.reply.Err? ==> r.state == s
    ensures !form.hasImage ==> r.reply == Err(400, "Wajib upload gambar")
    ensures form.hasImage && (form.latitude.Malformed? || form.longitude.Malformed?)
            ==> r.reply == Err(400, "Format koordinat tidak valid")
    ensures form.hasImage && !form.latitude.Malformed? && !form.longitude.Malformed?
            && (form.latitude.Missing? || form.longitude.Missing?)
            ==> r.reply == Err(400, "Koordinat latitude dan longitude wajib diisi")
    ensures form.hasImage && !form.latitude.Malformed? && !form.longitude.Malformed?
            && !form.latitude.Missing? && !form.longitude.Missing? && !CoordinatesAccepted(form)
            ==> r.reply == Err(400, "Koordinat tidak valid")
    ensures form.hasImage && CoordinatesAccepted(form) && image.None?
            ==> r.reply == Err(400, "File tidak valid")
    ensures form.hasImage && CoordinatesAccepted(form) && image.Some? && detector.None?
            ==> r.reply == Err(503, "Model AI tidak tersedia. Silakan hubungi administrator.")
    ensures r.reply.code == 406 <==>
              form.hasImage && CoordinatesAccepted(form) && image.Some? && detector.Some?
              && Severity.AnalyzeSeverity(detector.value, image.value.width, image.value.height, Severity.DefaultThreshold).count == 0
    ensures r.reply.Ok? <==>
              form.hasImage && CoordinatesAccepted(form) && image.Some? && detector.Some?
              && Severity.AnalyzeSeverity(detector.value, image.value.width, image.value.height, Severity.DefaultThreshold).count > 0
  {
    if !form.hasImage then Step(Err(400, "Wajib upload gambar"), s)
    else if form.latitude.Malformed? || form.longitude.Malformed? then
      Step(Err(400, "Format koordinat tidak valid"), s)
    else if form.latitude.Missing? || form.longitude.Missing? then
      Step(Err(400, "Koordinat latitude dan longitude wajib diisi"), s)
    else if !CoordinatesAccepted(form) then Step(Err(400, "Koordinat tidak valid"), s)
    else if image.None? then Step(Err(400, "File tidak valid"), s)
    else if detector.None? then
      Step(Err(503, "Model AI tidak tersedia. Silakan hubungi administrator."), s)
    else
      var a := Severity.AnalyzeSeverity(detector.value, image.value.width, image.value.height, Severity.DefaultThreshold);
      if a.count == 0 then Step(Err(406, "Tidak terdeteksi lubang"), s)
      else
        var id := s.nextPostId;
        var s' := Credited(s, actor).(posts := s.posts[id := NewPost(actor, form, a, now)], nextPostId := id + 1);
        Step(Ok(200, ToPostView(s', id)), s')
  }

  /** A successful upload adds exactly one post, under the next post id, carrying the
      classifier's count and verdict with zero tallies and status MENUNGGU, and credits its
      uploader with exactly ten points; no other user, vote or review changes. */
  lemma UploadCreatesOnePost(s: State, actor: nat, form: UploadForm, image: Option<Image>,
                             detector: Option<seq<Severity.DetectionResult>>, now: nat)
    requires actor in s.users
    requires image.Some? ==> image.value.width > 0 && image.value.height > 0
    requires Upload(s, actor, form, image, detector, now).reply.Ok?
    ensures var r := Upload(s, actor, form, image, detector, now);
            var a := Severity.AnalyzeSeverity(detector.value, image.value.width, image.value.height, Severity.DefaultThreshold);
            var p := r.state.posts[s.nextPostId];
            && r.state.posts == s.posts[s.nextPostId := p]
            && p.userId == actor && p.potholeCount == a.count > 0
            && (p.severity == Serius <==> a.severity == Severity.Serius)
            && p.confirmCount == 0 && p.falseCount == 0 && p.status == Menunggu
            && p.latitude == form.latitude.value && p.longitude == form.longitude.value
            && r.state == Credited(s, actor).(posts := s.posts[s.nextPostId := p], nextPostId := s.nextPostId + 1)
            && r.state.users[actor].points == s.users[actor].points + UploadPoints
            && (forall id :: id in s.users && id != actor ==> r.state.users[id] == s.users[id])
            && r.state.verifications == s.verifications && r.state.reviews == s.reviews
            && r.reply == Ok(200, ToPostView(r.state, s.nextPostId))
  {
  }

  /** The state with `actor` credited for an upload. */
  function Credited(s: State, actor: nat): (s': State)
    requires actor in s.users
    ensures s'.users == s.users[actor := s.users[actor].(points := s.users[actor].points + UploadPoints)]
    ensures s' == s.(users := s'.users)
  {
    s.(users := s.users[actor := s.users[actor].(points := s.users[actor].points + UploadPoints)])
  }

  /** Crediting a user and adding a vote-free post under the next post id keeps the invariant. */
  lemma AddPostPreservesValid(s: State, actor: nat, p: Post)
    requires Valid(s) && actor in s.users
    requires p.confirmCount == 0 && p.falseCount == 0
    ensures Valid(Credited(s, actor).(posts := s.posts[s.nextPostId := p], nextPostId := s.nextPostId + 1))
  {
    var s' := Credited(s, actor).(posts := s.posts[s.nextPostId := p], nextPostId := s.nextPostId + 1);
    var n := s.nextPostId;
    assert n !in s.posts;
    NoVotesCountZero(s.verifications, n);
    assert s'.users.Keys == s.users.Keys;
    assert UniqueUsernames(s'.users) && UniqueEmails(s'.users) by {
      forall id | id in s'.users
        ensures s'.users[id].username == s.users[id].username && s'.users[id].email == s.users[id].email
      {
      }
    }
    assert TalliesMatch(s') by {
      forall q | q in s'.posts
        ensures s'.posts[q].confirmCount == CountVotes(s'.verifications, q, Confirm)
        ensures s'.posts[q].falseCount == CountVotes(s'.verifications, q, False)
      {
        if q != n { assert s'.posts[q] == s.posts[q]; }
      }
    }
  }

  /** Uploading keeps the database invariant: the new post has no votes yet, so its zero
      tallies are live, and only the uploader's points change among the users. */
  lemma UploadPreservesValid(s: State, actor: nat, form: UploadForm, image: Option<Image>,
                             detector: Option<seq<Severity.DetectionResult>>, now: nat)
    requires Valid(s) && actor in s.users
    requires image.Some? ==> image.value.width > 0 && image.value.height > 0
    ensures Valid(Upload(s, actor, form, image, detector, now).state)
  {
    var r := Upload(s, actor, form, image, detector, now);
    if r.reply.Ok? {
      UploadCreatesOnePost(s, actor, form, image, detector, now);
      AddPostPreservesValid(s, actor, r.state.posts[s.nextPostId]);
    }
  }

  /** Coordinates on the boundary are accepted and just past it rejected. */
  lemma CoordinateBoundsInclusive()
    ensures InRange(90.0, 180.0) && InRange(-90.0, -180.0)
    ensures !InRange(91.0, 0.0) && !InRange(0.0, 181.0)
  {
  }

  // ================================================================ verification

  /** The body's `type`: CONFIRM only for the exact string "CONFIRM", FALSE otherwise. */
  function VoteTypeOf(vtype: Option<string>): VerificationType {
    if vtype == Some("CONFIRM") then Confirm else False
  }

  predicate VoteBy(v: Verification, p: nat, u: nat) {
    v.postId == p && v.userId == u
  }

  /** Update the existing (post, user) row in place, or insert one under the next key. */
  function UpsertVote(vs: map<nat, Verification>, nextId: nat, p: nat, u: nat, t: VerificationType)
    : (r: (map<nat, Verification>, nat))
    requires forall id :: id in vs ==> id < nextId
    ensures forall id :: id in r.0 ==> id < r.1
    ensures nextId <= r.1
    ensures exists id :: id in r.0 && VoteBy(r.0[id], p, u)
    ensures forall id :: id in r.0 && VoteBy(r.0[id], p, u) ==> r.0[id].kind == t
    ensures forall id :: id in vs && !VoteBy(vs[id], p, u) ==> id in r.0 && r.0[id] == vs[id]
    ensures forall id :: id in r.0 && !VoteBy(r.0[id], p, u) ==> id in vs
    ensures forall id :: id in vs && VoteBy(vs[id], p, u) ==> id in r.0 && r.0[id] == vs[id].(kind := t)
    ensures (exists id :: id in vs && VoteBy(vs[id], p, u)) ==> r.0.Keys == vs.Keys
    ensures (forall id :: id in vs ==> !VoteBy(vs[id], p, u)) ==>
              r.0 == vs[nextId := Verification(p, u, t)] && nextId !in vs
    ensures OneVotePerPair(vs) ==> OneVotePerPair(r.0)
  {
    if exists id :: id in vs && VoteBy(vs[id], p, u) then
      var vs' := map id | id in vs :: if VoteBy(vs[id], p, u) then vs[id].(kind := t) else vs[id];
      assert forall id :: id in vs' ==> VoteBy(vs'[id], p, u) == VoteBy(vs[id], p, u);
      (vs', nextId)
    else
      var vs' := vs[nextId := Verification(p, u, t)];
      assert nextId in vs' && VoteBy(vs'[nextId], p, u);
      (vs', nextId + 1)
  }

  /** Writing the same vote twice is the same as writing it once: no row and no id changes. */
  lemma UpsertRepeat(vs: map<nat, Verification>, nextId: nat, p: nat, u: nat, t: VerificationType)
    requires forall id :: id in vs ==> id < nextId
    ensures var once := UpsertVote(vs, nextId, p, u, t);
            UpsertVote(once.0, once.1, p, u, t) == once
  {
    var once := UpsertVote(vs, nextId, p, u, t);
    var e :| e in once.0 && VoteBy(once.0[e], p, u);
    var twice := UpsertVote(once.0, once.1, p, u, t);
    assert twice.1 == once.1;
    assert twice.0.Keys == once.0.Keys;
    forall id | id in once.0
      ensures twice.0[id] == once.0[id]
    {
      if VoteBy(once.0[id], p, u) {
        assert once.0[id].kind == t;
      }
    }
    assert twice.0 == once.0;
  }

  /** Re-voting with the other type moves the voter's row from one tally to the other. */
  lemma UpsertSwitchCounts(vs: map<nat, Verification>, nextId: nat, p: nat, u: nat, t: VerificationType, e: nat)
    requires forall id :: id in vs ==> id < nextId
    requires OneVotePerPair(vs) && e in vs && VoteBy(vs[e], p, u) && vs[e].kind != t
    ensures var vs' := UpsertVote(vs, nextId, p, u, t).0;
            && CountVotes(vs', p, t) == CountVotes(vs, p, t) + 1
            && CountVotes(vs', p, vs[e].kind) + 1 == CountVotes(vs, p, vs[e].kind)
  {
    var vs' := UpsertVote(vs, nextId, p, u, t).0;
    var prior := vs[e].kind;
    assert vs'.Keys == vs.Keys;
    forall id | id in vs && id != e
      ensures vs'[id] == vs[id]
    {
      assert !VoteBy(vs[id], p, u);
    }
    assert vs'[e] == vs[e].(kind := t);
    assert VotesFor(vs', p, prior) == VotesFor(vs, p, prior) - {e};
    assert VotesFor(vs', p, t) == VotesFor(vs, p, t) + {e};
    assert e !in VotesFor(vs, p, t);
  }

  /** A first vote of type `t` adds one to the `t` tally and leaves the other alone. */
  lemma UpsertFreshCounts(vs: map<nat, Verification>, nextId: nat, p: nat, u: nat, t: VerificationType, other: VerificationType)
    requires forall id :: id in vs ==> id < nextId
    requires forall id :: id in vs ==> !VoteBy(vs[id], p, u)
    requires other != t
    ensures var vs' := UpsertVote(vs, nextId, p, u, t).0;
            && CountVotes(vs', p, t) == CountVotes(vs, p, t) + 1
            && CountVotes(vs', p, other) == CountVotes(vs, p, other)
  {
    var vs' := UpsertVote(vs, nextId, p, u, t).0;
    assert VotesFor(vs', p, t) == VotesFor(vs, p, t) + {nextId};
    assert VotesFor(vs', p, other) == VotesFor(vs, p, other);
  }

  datatype Tally = Tally(valid: nat, falseVotes: nat)

  /** The rows of every other (post, user) pair are the same before and after: none is
      changed, removed or added. */
  predicate OtherRowsKept(vs: map<nat, Verification>, vs': map<nat, Verification>, p: nat, u: nat) {
    && (forall id :: id in vs && !VoteBy(vs[id], p, u) ==> id in vs' && vs'[id] == vs[id])
    && (forall id :: id in vs' && !VoteBy(vs'[id], p, u) ==> id in vs)
  }

  /** `verify_post`: an unknown post is a 404 that changes nothing; otherwise the voter's one
      row for the post is written with the vote's type, and the post's tallies are set to, and
      returned as, the live counts of its CONFIRM and FALSE rows. Nothing but that post and the
      vote table changes. */
  function VerifyPost(s: State, actor: nat, postId: nat, vtype: Option<string>): (r: Step<Tally>)
    requires KeysBelowCounters(s)
    ensures postId !in s.posts ==> r.reply.code == 404 && r.state == s
    ensures postId in s.posts ==>
              && r.reply == Ok(200, Tally(CountVotes(r.state.verifications, postId, Confirm),
                                          CountVotes(r.state.verifications, postId, False)))
              && r.state.posts == s.posts[postId := s.posts[postId].(
                   confirmCount := CountVotes(r.state.verifications, postId, Confirm),
                   falseCount := CountVotes(r.state.verifications, postId, False))]
              && (exists id :: id in r.state.verifications && VoteBy(r.state.verifications[id], postId, actor))
              && (forall id :: id in r.state.verifications && VoteBy(r.state.verifications[id], postId, actor)
                   ==> r.state.verifications[id].kind == VoteTypeOf(vtype))
              && OtherRowsKept(s.verifications, r.state.verifications, postId, actor)
              && r.state.users == s.users && r.state.reviews == s.reviews
  {
    if postId !in s.posts then Step(Err(404, "Not Found"), s)
    else
      var (vs, next) := UpsertVote(s.verifications, s.nextVerificationId, postId, actor, VoteTypeOf(vtype));
      var c := CountVotes(vs, postId, Confirm);
      var f := CountVotes(vs, postId, False);
      var post := s.posts[postId].(confirmCount := c, falseCount := f);
      Step(Ok(200, Tally(c, f)),
           s.(verifications := vs, nextVerificationId := next, posts := s.posts[postId := post]))
  }

  /** Votes on other posts are untouched by a vote on `p`, so their counts are too. */
  lemma CountsOfOtherPostsUnchanged(vs: map<nat, Verification>, vs': map<nat, Verification>, p: nat, u: nat, q: nat, t: VerificationType)
    requires q != p
    requires forall id :: id in vs && !VoteBy(vs[id], p, u) ==> id in vs' && vs'[id] == vs[id]
    requires forall id :: id in vs' && !VoteBy(vs'[id], p, u) ==> id in vs && vs'[id] == vs[id]
    ensures CountVotes(vs', q, t) == CountVotes(vs, q, t)
  {
    assert VotesFor(vs', q, t) == VotesFor(vs, q, t);
  }

  /** Voting keeps the database invariant: still one row per (post, user), and every post's
      tallies still equal its live counts. */
  lemma VerifyPreservesValid(s: State, actor: nat, postId: nat, vtype: Option<string>)
    requires Valid(s)
    ensures Valid(VerifyPost(s, actor, postId, vtype).state)
  {
    if postId in s.posts {
      var s' := VerifyPost(s, actor, postId, vtype).state;
      var (vs, next) := UpsertVote(s.verifications, s.nextVerificationId, postId, actor, VoteTypeOf(vtype));
      assert s'.verifications == vs;
      forall q, t | q in s'.posts && q != postId
        ensures CountVotes(vs, q, t) == CountVotes(s.verifications, q, t)
      {
        CountsOfOtherPostsUnchanged(s.verifications, vs, postId, actor, q, t);
      }
    }
  }

  /** With one row per (post, user), the voter has exactly one row on the post after voting. */
  lemma VoteLeavesExactlyOneRow(s: State, actor: nat, postId: nat, vtype: Option<string>)
    requires Valid(s) && postId in s.posts
    ensures var vs := VerifyPost(s, actor, postId, vtype).state.verifications;
            exists id :: id in vs && VoteBy(vs[id], postId, actor) && vs[id].kind == VoteTypeOf(vtype)
                         && forall other :: other in vs && VoteBy(vs[other], postId, actor) ==> other == id
  {
    VerifyPreservesValid(s, actor, postId, vtype);
  }

  /** Casting the same vote again changes nothing and returns the same tallies. */
  lemma VoteIdempotent(s: State, actor: nat, postId: nat, vtype: Option<string>)
    requires Valid(s)
    ensures var first := VerifyPost(s, actor, postId, vtype);
            VerifyPost(first.state, actor, postId, vtype) == first
  {
    var first := VerifyPost(s, actor, postId, vtype);
    if postId in s.posts {
      UpsertRepeat(s.verifications, s.nextVerificationId, postId, actor, VoteTypeOf(vtype));
    }
  }

  /** The voter's current row on the post, if any. */
  predicate HasVote(vs: map<nat, Verification>, p: nat, u: nat, t: VerificationType) {
    exists id :: id in vs && VoteBy(vs[id], p, u) && vs[id].kind == t
  }

  /** Switching a vote moves exactly one unit from the old tally to the new one. */
  lemma VoteSwitchMovesOne(s: State, actor: nat, postId: nat, vtype: Option<string>, prior: VerificationType)
    requires Valid(s) && postId in s.posts
    requires HasVote(s.verifications, postId, actor, prior) && prior != VoteTypeOf(vtype)
    ensures var t := VerifyPost(s, actor, postId, vtype).reply.value;
            var before := s.posts[postId];
            if prior == Confirm then t.valid + 1 == before.confirmCount && t.falseVotes == before.falseCount + 1
            else t.valid == before.confirmCount + 1 && t.falseVotes + 1 == before.falseCount
  {
    var e :| e in s.verifications && VoteBy(s.verifications[e], postId, actor) && s.verifications[e].kind == prior;
    UpsertSwitchCounts(s.verifications, s.nextVerificationId, postId, actor, VoteTypeOf(vtype), e);
  }

  /** A first vote adds one to its own tally and leaves the other alone. */
  lemma FirstVoteAddsOne(s: State, actor: nat, postId: nat, vtype: Option<string>)
    requires Valid(s) && postId in s.posts
    requires forall id :: id in s.verifications ==> !VoteBy(s.verifications[id], postId, actor)
    ensures var t := VerifyPost(s, actor, postId, vtype).reply.value;
            var before := s.posts[postId];
            if VoteTypeOf(vtype) == Confirm then t == Tally(before.confirmCount + 1, before.falseCount)
            else t == Tally(before.confirmCount, before.falseCount + 1)
  {
    var t := VoteTypeOf(vtype);
    UpsertFreshCounts(s.verifications, s.nextVerificationId, postId, actor, t, if t == Confirm then False else Confirm);
  }

  /** On a post with no votes, CONFIRM followed by FALSE from the same voter ends at (0, 1). */
  lemma ConfirmThenFalse(s: State, actor: nat, postId: nat)
    requires Valid(s) && postId in s.posts
    requires s.posts[postId].confirmCount == 0 && s.posts[postId].falseCount == 0
    ensures var s1 := VerifyPost(s, actor, postId, Some("CONFIRM")).state;
            VerifyPost(s1, actor, postId, Some("FALSE")).reply == Ok(200, Tally(0, 1))
  {
    UntalliedPostHasNoRows(s, postId, actor);
    FirstVoteAddsOne(s, actor, postId, Some("CONFIRM"));
    var first := VerifyPost(s, actor, postId, Some("CONFIRM"));
    var s1 := first.state;
    assert first.reply.value == Tally(1, 0);
    assert s1.posts[postId].confirmCount == 1 && s1.posts[postId].falseCount == 0;
    VerifyPreservesValid(s, actor, postId, Some("CONFIRM"));
    var e :| e in s1.verifications && VoteBy(s1.verifications[e], postId, actor);
    assert HasVote(s1.verifications, postId, actor, Confirm);
    VoteSwitchMovesOne(s1, actor, postId, Some("FALSE"), Confirm);
  }

  /** Under the invariant, a post whose tallies are both 0 has no vote row at all. */
  lemma UntalliedPostHasNoRows(s: State, postId: nat, actor: nat)
    requires Valid(s) && postId in s.posts
    requires s.posts[postId].confirmCount == 0 && s.posts[postId].falseCount == 0
    ensures forall id :: id in s.verifications ==> !VoteBy(s.verifications[id], postId, actor)
  {
    var vs := s.verifications;
    assert forall id :: id in vs && vs[id].postId == postId ==> id in VotesFor(vs, postId, vs[id].kind);
  }

  // ================================================================ status

  /** The lower-cased status names the setter accepts. */
  function ParseStatus(name: string): (r: Option<PostStatus>)
    ensures r.Some? <==> name in ["menunggu", "diproses", "selesai"]
  {
    if name == "menunggu" then Some(Menunggu)
    else if name == "diproses" then Some(Diproses)
    else if name == "selesai" then Some(Selesai)
    else None
  }

  function StatusName(st: PostStatus): string {
    match st
    case Menunggu => "menunggu"
    case Diproses => "diproses"
    case Selesai => "selesai"
  }

  /** Status names round-trip through parsing. */
  lemma StatusNameRoundTrip(st: PostStatus)
    ensures ParseStatus(StatusName(st)) == Some(st)
    ensures ParseStatus(Text.Lower(StatusName(st))) == Some(st)
  {
    assert Text.Lower(StatusName(st)) == StatusName(st);
  }

  predicate IsStaff(r: Role) {
    r == Petugas || r == Admin
  }

  /** `update_post_status`: a role other than PETUGAS or ADMIN is refused before the post is
      looked up; the lower-cased status must name one of the three statuses; on success only
      that post's status changes, whatever it was before. */
  function UpdatePostStatus(s: State, actor: nat, postId: nat, status: Option<string>): (r: Step<PostView>)
    requires actor in s.users
    ensures r.reply.Err? ==> r.state == s
    ensures !IsStaff(s.users[actor].role) ==> r.reply.code == 403
    ensures IsStaff(s.users[actor].role) && postId !in s.posts ==> r.reply.code == 404
    ensures IsStaff(s.users[actor].role) && postId in s.posts ==>
              (r.reply.code == 400 <==> ParseStatus(Text.Lower(status.GetOr(""))).None?)
    ensures r.reply.Ok? <==>
              IsStaff(s.users[actor].role) && postId in s.posts
              && ParseStatus(Text.Lower(status.GetOr(""))).Some?
    ensures r.reply.Ok? ==>
              r.state == s.(posts := s.posts[postId := s.posts[postId].(
                 status := ParseStatus(Text.Lower(status.GetOr(""))).value)])
  {
    if !IsStaff(s.users[actor].role) then
      Step(Err(403, "Akses ditolak. Hanya petugas atau admin yang bisa mengubah status."), s)
    else if postId !in s.posts then Step(Err(404, "Not Found"), s)
    else match ParseStatus(Text.Lower(status.GetOr("")))
      case None =>
        Step(Err(400, "Status tidak valid. Pilihan: ['menunggu', 'diproses', 'selesai']"), s)
      case Some(st) =>
        var s' := s.(posts := s.posts[postId := s.posts[postId].(status := st)]);
        Step(Ok(200, ToPostView(s', postId)), s')
  }

  /** Status is a free assignment: staff can move any post from any status to any status. */
  lemma AnyStatusToAnyStatus(s: State, actor: nat, postId: nat, target: PostStatus)
    requires actor in s.users && IsStaff(s.users[actor].role) && postId in s.posts
    ensures var r := UpdatePostStatus(s, actor, postId, Some(StatusName(target)));
            r.reply.Ok? && r.state.posts[postId].status == target
  {
    StatusNameRoundTrip(target);
  }

  /** Changing a status keeps the database invariant. */
  lemma UpdateStatusPreservesValid(s: State, actor: nat, postId: nat, status: Option<string>)
    requires Valid(s) && actor in s.users
    ensures Valid(UpdatePostStatus(s, actor, postId, status).state)
  {
  }

  // ================================================================ delete

  /** `delete_post`: unknown post is 404; then 403 unless the actor is an admin or the owner.
      On success the post and every vote on it are removed and nothing else changes. */
  function DeletePost(s: State, actor: nat, postId: nat): (r: Step<()>)
    requires actor in s.users
    ensures r.reply.Err? ==> r.state == s
    ensures postId !in s.posts ==> r.reply.code == 404
    ensures postId in s.posts ==>
              (r.reply.Ok? <==> s.users[actor].role == Admin || s.posts[postId].userId == actor)
    ensures postId in s.posts && r.reply.Err? ==> r.reply.code == 403
    ensures r.reply.Ok? ==>
              && r.state.posts == s.posts - {postId}
              && (forall id :: id in r.state.verifications <==>
                    id in s.verifications && s.verifications[id].postId != postId)
              && (forall id :: id in r.state.verifications ==> r.state.verifications[id] == s.verifications[id])
              && r.state.users == s.users && r.state.reviews == s.reviews
  {
    if postId !in s.posts then Step(Err(404, "Not Found"), s)
    else if s.users[actor].role != Admin && actor != s.posts[postId].userId then
      Step(Err(403, "Akses ditolak"), s)
    else
      var vs := map id | id in s.verifications && s.verifications[id].postId != postId :: s.verifications[id];
      Step(Ok(200, ()), s.(posts := s.posts - {postId}, verifications := vs))
  }

  /** Deleting a post keeps the database invariant: the remaining posts keep all their votes. */
  lemma DeletePostPreservesValid(s: State, actor: nat, postId: nat)
    requires Valid(s) && actor in s.users
    ensures Valid(DeletePost(s, actor, postId).state)
  {
    var s' := DeletePost(s, actor, postId).state;
    forall q, t | q in s'.posts
      ensures CountVotes(s'.verifications, q, t) == CountVotes(s.verifications, q, t)
    {
      assert VotesFor(s'.verifications, q, t) == VotesFor(s.verifications, q, t);
    }
  }

  // ================================================================ queries

  /** The `sort` parameter of the feed, lower-cased, default "terbaru". */
  datatype FeedSort = Newest | Trending | Finished

  function FeedSortOf(sort: Option<string>): FeedSort {
    var k := Text.Lower(sort.GetOr("terbaru"));
    if k == "trending" then Trending else if k == "selesai" then Finished else Newest
  }

  predicate InFeed(mode: FeedSort, p: Post) {
    match mode
    case Newest => true
    case Trending => p.status != Selesai
    case Finished => p.status == Selesai
  }

  /** `a` may be listed before `b`: trending orders by vote volume, then newest; the other
      feeds order newest first. */
  predicate FeedBefore(mode: FeedSort, a: Post, b: Post) {
    if mode == Trending then
      a.confirmCount + a.falseCount > b.confirmCount + b.falseCount
      || (a.confirmCount + a.falseCount == b.confirmCount + b.falseCount && a.createdAt >= b.createdAt)
    else a.createdAt >= b.createdAt
  }

  function FeedRank(mode: FeedSort, p: Post): Ordering.Rank {
    if mode == Trending then Ordering.Rank(p.confirmCount + p.falseCount, p.createdAt)
    else Ordering.Rank(0, p.createdAt)
  }

  /** Lists the posts in `ids` ordered by `mode`. */
  method SortPosts(s: State, ids: set<nat>, mode: FeedSort) returns (r: seq<nat>)
    requires ids <= s.posts.Keys
    ensures forall id :: id in r <==> id in ids
    ensures Ordering.Distinct(r)
    ensures forall i, j :: 0 <= i < j < |r| ==> FeedBefore(mode, s.posts[r[i]], s.posts[r[j]])
  {
    var rank := map id | id in ids :: FeedRank(mode, s.posts[id]);
    r := Ordering.SortByRank(ids, rank);
    forall i, j | 0 <= i < j < |r|
      ensures FeedBefore(mode, s.posts[r[i]], s.posts[r[j]])
    {
      assert Ordering.RankGeq(rank[r[i]], rank[r[j]]);
    }
  }

  /** `get_posts`: "trending" lists the unfinished posts by vote volume then newest;
      "selesai" lists only the finished posts newest first; anything else lists every post
      newest first. Each post appears once. */
  method GetPosts(s: State, sort: Option<string>) returns (r: seq<nat>)
    ensures forall id :: id in r <==> id in s.posts && InFeed(FeedSortOf(sort), s.posts[id])
    ensures Ordering.Distinct(r)
    ensures forall i, j :: 0 <= i < j < |r| ==> FeedBefore(FeedSortOf(sort), s.posts[r[i]], s.posts[r[j]])
  {
    var mode := FeedSortOf(sort);
    var ids := set id | id in s.posts && InFeed(mode, s.posts[id]);
    r := SortPosts(s, ids, mode);
  }

  /** `get_posts_by_status`: "all" (the default) or one status name, case-insensitively;
      anything else is a 400. The chosen posts come newest first. */
  method GetPostsByStatus(s: State, status: Option<string>) returns (r: Reply<seq<nat>>)
    ensures var k := Text.Lower(status.GetOr("all"));
            r.Err? <==> k != "all" && ParseStatus(k).None?
    ensures r.Err? ==> r == Err(400, "Status filter tidak valid")
    ensures r.Ok? ==>
              var k := Text.Lower(status.GetOr("all"));
              && r.code == 200
              && (forall id :: id in r.value <==>
                    id in s.posts && (k == "all" || ParseStatus(k) == Some(s.posts[id].status)))
              && Ordering.Distinct(r.value)
              && forall i, j :: 0 <= i < j < |r.value| ==> s.posts[r.value[i]].createdAt >= s.posts[r.value[j]].createdAt
  {
    var k := Text.Lower(status.GetOr("all"));
    if k == "all" {
      var ids := SortPosts(s, s.posts.Keys, Newest);
      r := Ok(200, ids);
    } else if ParseStatus(k).Some? {
      var st := ParseStatus(k).value;
      var chosen := set id | id in s.posts && s.posts[id].status == st;
      var ids := SortPosts(s, chosen, Newest);
      r := Ok(200, ids);
    } else {
      r := Err(400, "Status filter tidak valid");
    }
  }

  /** One location parameter against one location column: an empty (stripped) parameter
      does not filter; otherwise the column must be present and contain it, ignoring case. */
  predicate LocationMatches(column: Option<string>, term: string) {
    term == "" || (column.Some? && Text.ContainsIgnoreCase(column.value, term))
  }

  /** `get_posts_by_location`: the conjunction of the three location filters, newest first. */
  method GetPostsByLocation(s: State, province: Option<string>, city: Option<string>, district: Option<string>)
    returns (r: seq<nat>)
    ensures forall id :: id in r <==>
              id in s.posts
              && LocationMatches(s.posts[id].province, Text.Strip(province.GetOr("")))
              && LocationMatches(s.posts[id].city, Text.Strip(city.GetOr("")))
              && LocationMatches(s.posts[id].district, Text.Strip(district.GetOr("")))
    ensures Ordering.Distinct(r)
    ensures forall i, j :: 0 <= i < j < |r| ==> s.posts[r[i]].createdAt >= s.posts[r[j]].createdAt
  {
    var p := Text.Strip(province.GetOr(""));
    var c := Text.Strip(city.GetOr(""));
    var d := Text.Strip(district.GetOr(""));
    var ids := set id | id in s.posts && LocationMatches(s.posts[id].province, p)
                        && LocationMatches(s.posts[id].city, c) && LocationMatches(s.posts[id].district, d);
    r := SortPosts(s, ids, Newest);
  }

  /** Leaving every location parameter empty (or blank) lists every post. */
  lemma EmptyLocationFilterKeepsAll(p: Post, blank: string)
    requires forall i :: 0 <= i < |blank| ==> Text.IsSpace(blank[i])
    ensures Text.Strip(blank) == ""
    ensures LocationMatches(p.province, Text.Strip(blank))
  {
  }

  datatype LocationColumn = Province | City | District

  function Column(p: Post, c: LocationColumn): Option<string> {
    match c
    case Province => p.province
    case City => p.city
    case District => p.district
  }

  /** One list of `get_posts_locations`: the distinct non-empty values of a location column,
      sorted. */
  method DistinctValues(s: State, c: LocationColumn) returns (r: seq<string>)
    ensures forall x :: x in r <==> x != "" && exists id :: id in s.posts && Column(s.posts[id], c) == Some(x)
    ensures Ordering.StrictlyIncreasing(r)
    ensures Ordering.Distinct(r)
  {
    var values := set id | id in s.posts && Column(s.posts[id], c).Some? && Column(s.posts[id], c).value != ""
                   :: Column(s.posts[id], c).value;
    r := Ordering.SortStrings(values);
    Ordering.StrictlyIncreasingDistinct(r);
  }

  /** `get_posts_locations`: the three sorted, duplicate-free lists of non-empty provinces,
      cities and districts. */
  method GetPostsLocations(s: State) returns (provinces: seq<string>, cities: seq<string>, districts: seq<string>)
    ensures forall x :: x in provinces <==> x != "" && exists id :: id in s.posts && s.posts[id].province == Some(x)
    ensures forall x :: x in cities <==> x != "" && exists id :: id in s.posts && s.posts[id].city == Some(x)
    ensures forall x :: x in districts <==> x != "" && exists id :: id in s.posts && s.posts[id].district == Some(x)
    ensures Ordering.StrictlyIncreasing(provinces) && Ordering.StrictlyIncreasing(cities)
    ensures Ordering.StrictlyIncreasing(districts)
  {
    provinces := DistinctValues(s, Province);
    cities := DistinctValues(s, City);
    districts := DistinctValues(s, District);
  }
}

=== FILE: reviews.dfy ===
/** The review handlers of routes/others.py: posting a review with an automatic sentiment,
    listing reviews with lazy sentiment fill-in, and deleting a review. The sentiment
    predictor is a parameter: None when no predictor is installed, otherwise a function from
    comment to label (None when the prediction fails). */
module Reviews {
  import opened Wrappers
  import opened Store
  import Ordering

  /** The JSON `rating` value: an integer, a boolean (which Python counts as an integer),
      or anything else (absent, null, a string, a float, ...). */
  datatype RatingInput = IntRating(value: int) | BoolRating(flag: bool) | NotAnInt

  /** The stored rating, if the input passes the check: a truthy integer between 1 and 5
      inclusive; `true` passes as 1. */
  function AcceptedRating(r: RatingInput): (a: Option<int>)
    ensures a.Some? ==> 1 <= a.value <= 5
    ensures r.IntRating? ==> (a.Some? <==> 1 <= r.value <= 5) && (a.Some? ==> a.value == r.value)
    ensures r.BoolRating? ==> (a.Some? <==> r.flag) && (a.Some? ==> a.value == 1)
    ensures r.NotAnInt? ==> a.None?
  {
    match r
    case IntRating(v) => if 1 <= v <= 5 then Some(v) else None
    case BoolRating(b) => if b then Some(1) else None
    case NotAnInt => None
  }

  /** A comment the predictor is asked about: present and non-empty. */
  predicate HasText(comment: Option<string>) {
    comment.Some? && comment.value != ""
  }

  /** The sentiment a new review is stored with. */
  function InitialSentiment(comment: Option<string>, predictor: Option<string -> Option<string>>): Option<string> {
    if HasText(comment) && predictor.Some? then predictor.value(comment.value) else None
  }

  /** `create_review`: an invalid rating is a 400 that stores nothing; otherwise one review is
      added for the actor, with a sentiment only when the comment is non-empty and a predictor
      is installed. */
  function CreateReview(s: State, actor: nat, rating: RatingInput, comment: Option<string>,
                        predictor: Option<string -> Option<string>>, now: int): (r: Step<nat>)
    ensures r.reply.Err? ==> r.state == s
    ensures r.reply.Err? <==> AcceptedRating(rating).None?
    ensures r.reply.Err? ==> r.reply == Err(400, "Rating harus berupa angka 1-5")
    ensures r.reply.Ok? ==> s.nextReviewId in r.state.reviews
    ensures r.reply.Ok? ==>
              && r.reply == Ok(201, s.nextReviewId)
              && r.state.reviews == s.reviews[s.nextReviewId := r.state.reviews[s.nextReviewId]]
              && var rv := r.state.reviews[s.nextReviewId];
              && rv.userId == actor && rv.comment == comment
              && rv.rating == AcceptedRating(rating).value && rv.createdAt == now
              && (!HasText(comment) || predictor.None? ==> rv.sentiment.None?)
              && (HasText(comment) && predictor.Some? ==> rv.sentiment == predictor.value(comment.value))
              && r.state == s.(reviews := r.state.reviews, nextReviewId := s.nextReviewId + 1)
  {
    match AcceptedRating(rating)
    case None => Step(Err(400, "Rating harus berupa angka 1-5"), s)
    case Some(v) =>
      var rv := Review(actor, v, comment, InitialSentiment(comment, predictor), now);
      Step(Ok(201, s.nextReviewId),
           s.(reviews := s.reviews[s.nextReviewId := rv], nextReviewId := s.nextReviewId + 1))
  }

  lemma CreateReviewPreservesValid(s: State, actor: nat, rating: RatingInput, comment: Option<string>,
                                   predictor: Option<string -> Option<string>>, now: int)
    requires Valid(s)
    ensures Valid(CreateReview(s, actor, rating, comment, predictor, now).state)
  {
  }

  /** Out-of-range ratings are refused and `true` is accepted as 1. */
  lemma RatingBoundaries()
    ensures AcceptedRating(IntRating(0)).None? && AcceptedRating(IntRating(6)).None?
    ensures AcceptedRating(IntRating(1)) == Some(1) && AcceptedRating(IntRating(5)) == Some(5)
    ensures AcceptedRating(BoolRating(true)) == Some(1) && AcceptedRating(BoolRating(false)).None?
  {
  }

  /** A review the listing tries to label: a non-empty comment and no sentiment yet. */
  predicate NeedsSentiment(rv: Review) {
    HasText(rv.comment) && rv.sentiment.None?
  }

  /** The listing's label for one review: a non-empty prediction, when one is asked for. */
  function Filled(rv: Review, predictor: Option<string -> Option<string>>): (rv': Review)
    ensures rv'.userId == rv.userId && rv'.rating == rv.rating && rv'.comment == rv.comment
    ensures rv'.createdAt == rv.createdAt
    ensures !NeedsSentiment(rv) || predictor.None? ==> rv' == rv
    ensures rv.sentiment.Some? ==> rv' == rv
    ensures rv'.sentiment.Some? ==> rv'.sentiment.value != "" || rv.sentiment.Some?
    ensures NeedsSentiment(rv) && predictor.Some? ==>
              var p := predictor.value(rv.comment.value);
              rv'.sentiment == (if p.Some? && p.value != "" then p else None)
  {
    if NeedsSentiment(rv) && predictor.Some? then
      var p := predictor.value(rv.comment.value);
      if p.Some? && p.value != "" then rv.(sentiment := p) else rv
    else rv
  }

  /** Filling is idempotent: a second listing with the same predictor changes nothing. */
  lemma FilledIdempotent(rv: Review, predictor: Option<string -> Option<string>>)
    ensures Filled(Filled(rv, predictor), predictor) == Filled(rv, predictor)
  {
  }

  /** `get_reviews`: every review is listed once, newest first; reviews with a non-empty
      comment and no sentiment get the predictor's label when it is non-empty, and no other
      review changes. */
  method GetReviews(s: State, predictor: Option<string -> Option<string>>) returns (r: Step<seq<nat>>)
    ensures r.reply.Ok? && r.reply.code == 200
    ensures Valid(s) ==> Valid(r.state)
    ensures r.state == s.(reviews := r.state.reviews)
    ensures r.state.reviews.Keys == s.reviews.Keys
    ensures forall id :: id in s.reviews ==> r.state.reviews[id] == Filled(s.reviews[id], predictor)
    ensures forall id :: id in r.reply.value <==> id in s.reviews
    ensures Ordering.Distinct(r.reply.value)
    ensures forall i, j :: 0 <= i < j < |r.reply.value| ==>
              s.reviews[r.reply.value[i]].createdAt >= s.reviews[r.reply.value[j]].createdAt
  {
    var rank := map id | id in s.reviews :: Ordering.Rank(0, s.reviews[id].createdAt);
    var ids := Ordering.SortByRank(s.reviews.Keys, rank);
    forall i, j | 0 <= i < j < |ids|
      ensures s.reviews[ids[i]].createdAt >= s.reviews[ids[j]].createdAt
    {
      assert Ordering.RankGeq(rank[ids[i]], rank[ids[j]]);
    }
    var reviews := map id | id in s.reviews :: Filled(s.reviews[id], predictor);
    r := Step(Ok(200, ids), s.(reviews := reviews));
  }

  /** `delete_review`: admins only, then 404 for an unknown review; otherwise exactly that
      review is removed. */
  function DeleteReview(s: State, actor: nat, reviewId: nat): (r: Step<()>)
    requires actor in s.users
    ensures r.reply.Err? ==> r.state == s
    ensures s.users[actor].role != Admin ==> r.reply == Err(403, "Akses ditolak")
    ensures s.users[actor].role == Admin && reviewId !in s.reviews ==> r.reply.code == 404
    ensures r.reply.Ok? <==> s.users[actor].role == Admin && reviewId in s.reviews
    ensures r.reply.Ok? ==> r.state == s.(reviews := s.reviews - {reviewId})
  {
    if s.users[actor].role != Admin then Step(Err(403, "Akses ditolak"), s)
    else if reviewId !in s.reviews then Step(Err(404, "Not Found"), s)
    else Step(Ok(200, ()), s.(reviews := s.reviews - {reviewId}))
  }

  lemma DeleteReviewPreservesValid(s: State, actor: nat, reviewId: nat)
    requires Valid(s) && actor in s.users
    ensures Valid(DeleteReview(s, actor, reviewId).state)
  {
  }
}

=== FILE: sentiment.dfy ===
/** The label mapping of sentiment_service.py: how `SentimentAnalyzer` finds the class
    labels of a loaded scikit-learn model and turns a raw prediction into a label. The
    model itself is abstract: only the attributes the service inspects are kept. */
module Sentiment {
  import opened Wrappers
  import Text

  /** A pipeline step: its `classes_` attribute (labels already rendered with `str`), None
      when the step has no such attribute. */
  datatype Estimator = Estimator(classes: Option<seq<string>>)

  /** A loaded model: its own `classes_`, its `named_steps` and `steps` (None when the
      attribute is absent, in pipeline order otherwise), and whether it has `predict`. */
  datatype SkModel = SkModel(
    classes: Option<seq<string>>,
    namedSteps: Option<seq<Estimator>>,
    steps: Option<seq<Estimator>>,
    hasPredict: bool)

  /** A `SentimentAnalyzer` after loading: its model (None when loading failed) and its
      class list. */
  datatype Analyzer = Analyzer(model: Option<SkModel>, classes: Option<seq<string>>)

  const DefaultClasses: seq<string> := ["negatif", "positif"]

  /** The classes of the last step that has any, scanning from the end. */
  function LastWithClasses(steps: seq<Estimator>): (r: Option<seq<string>>)
    ensures r.None? <==> forall i :: 0 <= i < |steps| ==> steps[i].classes.None?
    ensures r.Some? ==> exists i :: 0 <= i < |steps| && steps[i].classes == r
                                    && forall j :: i < j < |steps| ==> steps[j].classes.None?
  {
    if |steps| == 0 then None
    else if steps[|steps| - 1].classes.Some? then steps[|steps| - 1].classes
    else
      var r := LastWithClasses(steps[..|steps| - 1]);
      assert forall i :: 0 <= i < |steps| - 1 ==> steps[..|steps| - 1][i] == steps[i];
      r
  }

  /** The classes `_detect_classes` finds before lower-casing: the model's own first; else,
      when it has `named_steps`, the last named step with classes; else, when it has `steps`,
      the last step with classes. A model with `named_steps` is never searched by `steps`. */
  function FoundClasses(m: SkModel): (r: Option<seq<string>>)
    ensures m.classes.Some? ==> r == m.classes
    ensures m.classes.None? && m.namedSteps.Some? ==> r == LastWithClasses(m.namedSteps.value)
    ensures m.classes.None? && m.namedSteps.None? && m.steps.Some? ==> r == LastWithClasses(m.steps.value)
    ensures m.classes.None? && m.namedSteps.None? && m.steps.None? ==> r.None?
  {
    if m.classes.Some? then m.classes
    else if m.namedSteps.Some? then LastWithClasses(m.namedSteps.value)
    else if m.steps.Some? then LastWithClasses(m.steps.value)
    else None
  }

  function LowerAll(cs: seq<string>): (r: seq<string>)
    ensures |r| == |cs|
    ensures forall i :: 0 <= i < |cs| ==> r[i] == Text.Lower(cs[i])
  {
    seq(|cs|, i requires 0 <= i < |cs| => Text.Lower(cs[i]))
  }

  /** Every label in the list is already lower case. */
  predicate AllLower(cs: seq<string>) {
    forall i :: 0 <= i < |cs| ==> Text.Lower(cs[i]) == cs[i]
  }

  /** `SentimentAnalyzer(path)`: `model` is the unpickled model, None when loading failed.
      Found classes are lower-cased; with none found the default [negatif, positif] is used.
      Fewer than two found classes make the debug lines that show indices 0 and 1 raise, and
      the loader's handler then drops the model while the class list stays set. */
  function Load(model: Option<SkModel>): (a: Analyzer)
    ensures model.None? ==> a == Analyzer(None, None)
    ensures model.Some? && FoundClasses(model.value).None? ==> a == Analyzer(model, Some(DefaultClasses))
    ensures model.Some? && FoundClasses(model.value).Some? ==>
              && a.classes == Some(LowerAll(FoundClasses(model.value).value))
              && (a.model == model <==> |FoundClasses(model.value).value| >= 2)
              && (a.model.None? <==> |FoundClasses(model.value).value| < 2)
  {
    if model.None? then Analyzer(None, None)
    else match FoundClasses(model.value)
      case None => Analyzer(model, Some(DefaultClasses))
      case Some(found) =>
        var labels := LowerAll(found);
        if |labels| < 2 then Analyzer(None, Some(labels)) else Analyzer(model, Some(labels))
  }

  /** Whatever was loaded, an analyzer that kept its model knows at least two lower-case
      class labels. */
  lemma LoadedAnalyzerHasTwoLowerLabels(model: Option<SkModel>)
    ensures var a := Load(model);
            a.model.Some? ==> a.classes.Some? && |a.classes.value| >= 2 && AllLower(a.classes.value)
    ensures var a := Load(model);
            a.classes.Some? ==> AllLower(a.classes.value)
  {
    var a := Load(model);
    if a.classes.Some? {
      forall i | 0 <= i < |a.classes.value|
        ensures Text.Lower(a.classes.value[i]) == a.classes.value[i]
      {
        if model.Some? && FoundClasses(model.value).Some? {
          Text.LowerIdempotent(FoundClasses(model.value).value[i]);
        } else {
          assert a.classes.value == DefaultClasses;
        }
      }
    }
  }

  /** What `model.predict([text])[0]` turned out to be: a string label, a number (an int, a
      bool or a float), some other value, or an exception. */
  datatype RawPrediction = Label(text: string) | Number(value: real) | OtherValue | Raised

  /** Python `int()` on a finite float: truncation toward zero. */
  function Trunc(x: real): (n: int)
    ensures x >= 0.0 ==> n as real <= x < n as real + 1.0
    ensures x < 0.0 ==> n as real - 1.0 < x <= n as real
  {
    if x >= 0.0 then x.Floor else -((-x).Floor)
  }

  /** Python `cs[idx]`: a negative index counts from the end; None is the `IndexError`. */
  function PyIndex(cs: seq<string>, idx: int): (r: Option<string>)
    ensures 0 <= idx < |cs| ==> r == Some(cs[idx])
    ensures -|cs| <= idx < 0 ==> r == Some(cs[|cs| + idx])
    ensures r.None? <==> idx < -|cs| || idx >= |cs|
  {
    if 0 <= idx < |cs| then Some(cs[idx])
    else if -|cs| <= idx < 0 then Some(cs[|cs| + idx])
    else None
  }

  /** A negative index names the same element as the non-negative one `|cs|` places later. */
  lemma PyIndexFromEnd(cs: seq<string>, idx: int)
    requires 0 <= idx < |cs|
    ensures PyIndex(cs, idx - |cs|) == PyIndex(cs, idx) == Some(cs[idx])
    ensures PyIndex(cs, -1) == Some(cs[|cs| - 1])
    ensures PyIndex(cs, |cs|).None? && PyIndex(cs, -|cs| - 1).None?
  {
  }

  /** `predict`: None without a model or without `predict`; a string label lower-cased; a
      number used as a Python index into a non-empty class list when it is below its length
      (a negative one counts from the end, and one before the start is a caught `IndexError`),
      otherwise mapped to "positif" for 1 and "negatif" for anything else; None for any other
      value and for an exception. */
  function Predict(a: Analyzer, raw: RawPrediction): (r: Option<string>)
    ensures a.model.None? || !a.model.value.hasPredict ==> r.None?
    ensures raw.OtherValue? || raw.Raised? ==> r.None?
    ensures a.model.Some? && a.model.value.hasPredict && raw.Label? ==> r == Some(Text.Lower(raw.text))
    ensures (a.model.Some? && a.model.value.hasPredict && raw.Number? && a.classes.Some?
             && 0 <= Trunc(raw.value) < |a.classes.value|) ==>
              r == Some(a.classes.value[Trunc(raw.value)])
    ensures (a.model.Some? && a.model.value.hasPredict && raw.Number? && a.classes.Some?
             && |a.classes.value| > 0 && Trunc(raw.value) < 0) ==>
              && (Trunc(raw.value) >= -|a.classes.value| ==>
                    r == Some(a.classes.value[|a.classes.value| + Trunc(raw.value)]))
              && (Trunc(raw.value) < -|a.classes.value| ==> r.None?)
    ensures a.model.Some? && a.model.value.hasPredict && raw.Number?
            && (a.classes.None? || |a.classes.value| == 0 || Trunc(raw.value) >= |a.classes.value|) ==>
              r == Some(if Trunc(raw.value) == 1 then "positif" else "negatif")
  {
    if a.model.None? || !a.model.value.hasPredict then None
    else match raw
      case Label(t) => Some(Text.Lower(t))
      case Number(v) =>
        var idx := Trunc(v);
        if a.classes.Some? && |a.classes.value| > 0 && idx < |a.classes.value| then PyIndex(a.classes.value, idx)
        else if idx == 1 then Some("positif") else Some("negatif")
      case OtherValue => None
      case Raised => None
  }

  /** With the default classes, index 0 is "negatif" and index 1 is "positif". */
  lemma DefaultMapping(m: SkModel)
    requires m.hasPredict
    ensures Predict(Analyzer(Some(m), Some(DefaultClasses)), Number(0.0)) == Some("negatif")
    ensures Predict(Analyzer(Some(m), Some(DefaultClasses)), Number(1.0)) == Some("positif")
    ensures Predict(Analyzer(Some(m), Some(DefaultClasses)), Number(1.7)) == Some("positif")
  {
  }

  /** Every label a loaded analyzer predicts is lower case, and a numeric prediction inside
      the class list's range names one of its classes. */
  lemma LoadedPredictionsAreLowerLabels(model: Option<SkModel>, raw: RawPrediction)
    ensures var a := Load(model);
            var r := Predict(a, raw);
            r.Some? ==> Text.Lower(r.value) == r.value
    ensures var a := Load(model);
            var r := Predict(a, raw);
            (r.Some? && raw.Number? && a.classes.Some? && -|a.classes.value| <= Trunc(raw.value) < |a.classes.value|) ==>
              r.value in a.classes.value
  {
    var a := Load(model);
    LoadedAnalyzerHasTwoLowerLabels(model);
    var r := Predict(a, raw);
    if r.Some? && raw.Label? {
      Text.LowerIdempotent(raw.text);
    }
    assert Text.Lower("positif") == "positif";
    assert Text.Lower("negatif") == "negatif";
  }

  /** A loaded analyzer knows at least two classes, so an index past them never reaches the
      "positif" fallback: it always yields "negatif". */
  lemma LoadedFallbackIsNegatif(model: Option<SkModel>, v: real)
    requires Load(model).model.Some? && Load(model).model.value.hasPredict
    requires Trunc(v) >= |Load(model).classes.value|
    ensures Predict(Load(model), Number(v)) == Some("negatif")
  {
    LoadedAnalyzerHasTwoLowerLabels(model);
  }

  /** `predict_sentiment`: None while no analyzer is initialised. */
  function PredictSentiment(analyzer: Option<Analyzer>, raw: RawPrediction): (r: Option<string>)
    ensures analyzer.None? ==> r.None?
    ensures analyzer.Some? ==> r == Predict(analyzer.value, raw)
  {
    if analyzer.None? then None else Predict(analyzer.value, raw)
  }
}

=== FILE: severity.dfy ===
/** The pothole severity classifier of utils/ai_helper.py: detector boxes and the image
    size in, a verdict and a pothole count out. Confidences and areas are exact reals. */
module Severity {
  import opened Wrappers

  /** One geometry row of a box: centre x, centre y, width and height in pixels. */
  datatype Xywh = Xywh(x: real, y: real, w: real, h: real)

  /** A detected box: its confidence tensor and its (possibly missing) geometry tensor. */
  datatype Box = Box(conf: seq<real>, xywh: Option<seq<Xywh>>)

  /** One entry of the detector's result list. */
  datatype DetectionResult = DetectionResult(boxes: seq<Box>)

  /** The classifier's three verdicts. */
  datatype Verdict = Serius | TidakSerius | Aman

  datatype Assessment = Assessment(severity: Verdict, count: nat)

  /** Boxes must be strictly more confident than this to count. */
  const DefaultThreshold: real := 0.4
  /** A box covering strictly more than this fraction of the image is a large defect. */
  const LargeRatio: real := 0.035
  /** Strictly more than this many potholes is serious whatever their size. */
  const ManyPotholes: nat := 4

  /** The box's first confidence, or 0 when its confidence tensor is empty. */
  function Confidence(b: Box): real {
    if |b.conf| > 0 then b.conf[0] else 0.0
  }

  /** Only the first result is read; no result means no boxes. */
  function FirstBoxes(results: seq<DetectionResult>): seq<Box> {
    if |results| > 0 then results[0].boxes else []
  }

  /** Indices of the boxes that pass the confidence filter: the reference definition of "surviving". */
  function SurvivingIndices(boxes: seq<Box>, threshold: real): set<nat> {
    set i: nat | i < |boxes| && Confidence(boxes[i]) > threshold
  }

  /** The confidence filter as the source's loop builds it, appending in order. */
  function Survivors(boxes: seq<Box>, threshold: real): (r: seq<Box>)
    ensures forall b :: b in r <==> b in boxes && Confidence(b) > threshold
  {
    if |boxes| == 0 then []
    else
      var front := Survivors(boxes[..|boxes| - 1], threshold);
      var last := boxes[|boxes| - 1];
      assert boxes == boxes[..|boxes| - 1] + [last];
      if Confidence(last) > threshold then front + [last] else front
  }

  /** Appending one box adds its index to the surviving set exactly when it survives. */
  lemma SurvivingIndicesSnoc(boxes: seq<Box>, threshold: real)
    requires |boxes| > 0
    ensures var n := |boxes| - 1;
            && SurvivingIndices(boxes, threshold)
               == SurvivingIndices(boxes[..n], threshold) + (if Confidence(boxes[n]) > threshold then {n} else {})
            && n !in SurvivingIndices(boxes[..n], threshold)
  {
    var n := |boxes| - 1;
    var front := boxes[..n];
    var before := SurvivingIndices(front, threshold);
    var after := SurvivingIndices(boxes, threshold);
    var extra: set<nat> := if Confidence(boxes[n]) > threshold then {n} else {};
    forall i: nat
      ensures i in after <==> i in before + extra
    {
      if i < n {
        assert front[i] == boxes[i];
      }
    }
  }

  /** The filter keeps exactly one box per surviving index. */
  lemma {:induction false} SurvivorsCount(boxes: seq<Box>, threshold: real)
    ensures |Survivors(boxes, threshold)| == |SurvivingIndices(boxes, threshold)|
  {
    if |boxes| == 0 {
      assert SurvivingIndices(boxes, threshold) == {};
    } else {
      var n := |boxes| - 1;
      SurvivorsCount(boxes[..n], threshold);
      SurvivingIndicesSnoc(boxes, threshold);
      if Confidence(boxes[n]) > threshold {
        assert Survivors(boxes, threshold) == Survivors(boxes[..n], threshold) + [boxes[n]];
      } else {
        assert Survivors(boxes, threshold) == Survivors(boxes[..n], threshold);
      }
    }
  }

  /** The area of the box over the image area, when the box has geometry. */
  function AreaRatio(b: Box, imgW: int, imgH: int): Option<real>
    requires imgW > 0 && imgH > 0
  {
    if b.xywh.Some? && |b.xywh.value| > 0 then
      var g := b.xywh.value[0];
      Some((g.w * g.h) / ((imgW * imgH) as real))
    else None
  }

  /** A box is large when it has geometry and covers strictly more than 3.5% of the image. */
  predicate IsLarge(b: Box, imgW: int, imgH: int)
    requires imgW > 0 && imgH > 0
  {
    match AreaRatio(b, imgW, imgH)
    case Some(ratio) => ratio > LargeRatio
    case None => false
  }

  /** `analyze_severity(results, img_w, img_h, confidence_threshold)`. The count is the number
      of boxes of the first result above the threshold; no survivor means exactly (AMAN, 0);
      otherwise SERIUS exactly when there are more than four survivors or some survivor is large. */
  function AnalyzeSeverity(results: seq<DetectionResult>, imgW: int, imgH: int, threshold: real): (r: Assessment)
    requires imgW > 0 && imgH > 0
    ensures r.count == |SurvivingIndices(FirstBoxes(results), threshold)|
    ensures r.severity == Aman <==> r.count == 0
    ensures r.count == 0 ==> r == Assessment(Aman, 0)
    ensures r.severity == Serius <==>
              r.count > ManyPotholes
              || exists i :: i in SurvivingIndices(FirstBoxes(results), threshold)
                             && IsLarge(FirstBoxes(results)[i], imgW, imgH)
  {
    var boxes := FirstBoxes(results);
    var kept := Survivors(boxes, threshold);
    SurvivorsCount(boxes, threshold);
    var count := |kept|;
    if count == 0 then Assessment(Aman, 0)
    else
      var serious := exists b :: b in kept && IsLarge(b, imgW, imgH);
      assert serious <==> exists i :: i in SurvivingIndices(boxes, threshold) && IsLarge(boxes[i], imgW, imgH);
      if count > ManyPotholes || serious then Assessment(Serius, count)
      else Assessment(TidakSerius, count)
  }

  /** A surviving box without geometry is counted but never triggers the large-defect test:
      appending one adds exactly one to the count, and the verdict becomes SERIUS only if the
      count now exceeds four or an earlier survivor was already large. */
  lemma {:induction false} GeometrylessBoxCountedNotLarge(boxes: seq<Box>, b: Box, imgW: int, imgH: int, threshold: real)
    requires imgW > 0 && imgH > 0
    requires Confidence(b) > threshold
    requires b.xywh.None? || b.xywh == Some([])
    ensures var before := AnalyzeSeverity([DetectionResult(boxes)], imgW, imgH, threshold);
            var after := AnalyzeSeverity([DetectionResult(boxes + [b])], imgW, imgH, threshold);
            && after.count == before.count + 1
            && (after.severity == Serius <==>
                  before.count + 1 > ManyPotholes
                  || exists i :: i in SurvivingIndices(boxes, threshold) && IsLarge(boxes[i], imgW, imgH))
  {
    var longer := boxes + [b];
    var n := |boxes|;
    var before := SurvivingIndices(boxes, threshold);
    var after := SurvivingIndices(longer, threshold);
    forall i: nat
      ensures i in after <==> i in before + {n}
    {
      if i < n {
        assert longer[i] == boxes[i];
      }
    }
    assert after == before + {n};
    assert n !in before;
    assert !IsLarge(longer[n], imgW, imgH);
    assert forall i :: i in before ==> longer[i] == boxes[i];
  }

  function Sized(conf: real, side: real): Box {
    Box([conf], Some([Xywh(50.0, 50.0, side, side)]))
  }

  /** The worked examples on a 100x100 image, and the two boundaries: a confidence of exactly
      0.4 is discarded and exactly four small boxes are not serious. */
  lemma WorkedExamples()
    ensures AnalyzeSeverity([], 100, 100, DefaultThreshold) == Assessment(Aman, 0)
    ensures AnalyzeSeverity([DetectionResult([Sized(0.9, 20.0)])], 100, 100, DefaultThreshold) == Assessment(Serius, 1)
    ensures AnalyzeSeverity([DetectionResult([Sized(0.9, 10.0)])], 100, 100, DefaultThreshold) == Assessment(TidakSerius, 1)
    ensures AnalyzeSeverity([DetectionResult([Sized(0.1, 10.0)])], 100, 100, DefaultThreshold) == Assessment(Aman, 0)
    ensures AnalyzeSeverity([DetectionResult([Sized(0.4, 20.0)])], 100, 100, DefaultThreshold) == Assessment(Aman, 0)
    ensures AnalyzeSeverity([DetectionResult(seq(5, _ => Sized(0.9, 10.0)))], 100, 100, DefaultThreshold) == Assessment(Serius, 5)
    ensures AnalyzeSeverity([DetectionResult(seq(4, _ => Sized(0.9, 10.0)))], 100, 100, DefaultThreshold) == Assessment(TidakSerius, 4)
  {
    var big := [DetectionResult([Sized(0.9, 20.0)])];
    assert IsLarge(Sized(0.9, 20.0), 100, 100);
    assert 0 in SurvivingIndices(big[0].boxes, DefaultThreshold);
    var one := [DetectionResult([Sized(0.9, 10.0)])];
    assert SurvivingIndices(one[0].boxes, DefaultThreshold) == {0};
    var low := [DetectionResult([Sized(0.1, 10.0)])];
    assert SurvivingIndices(low[0].boxes, DefaultThreshold) == {};
    var edge := [DetectionResult([Sized(0.4, 20.0)])];
    assert SurvivingIndices(edge[0].boxes, DefaultThreshold) == {};
    var five := [DetectionResult(seq(5, _ => Sized(0.9, 10.0)))];
    assert SurvivingIndices(five[0].boxes, DefaultThreshold) == {0, 1, 2, 3, 4};
    var four := [DetectionResult(seq(4, _ => Sized(0.9, 10.0)))];
    assert SurvivingIndices(four[0].boxes, DefaultThreshold) == {0, 1, 2, 3};
  }
}

=== FILE: store.dfy ===
/** The entities of models.py and the database state the request handlers act on.
    Roles and post status follow the schema the routes use (with PETUGAS and the migrated
    status and location columns), which is ahead of the class definitions in models.py. */
module Store {
  import opened Wrappers

  /** `UserRole`: Citizen is the source's USER role. */
  datatype Role = Citizen | Petugas | Admin

  /** The `role.value` string a user's dictionary carries. */
  function RoleValue(r: Role): string {
    match r
    case Citizen => "user"
    case Petugas => "petugas"
    case Admin => "admin"
  }

  /** Handling status of a report; new posts start at Menunggu. */
  datatype PostStatus = Menunggu | Diproses | Selesai

  /** The stored severity column: an enum of only SERIUS and TIDAK_SERIUS. */
  datatype SeverityLabel = Serius | TidakSerius

  function SeverityName(l: SeverityLabel): string {
    match l
    case Serius => "SERIUS"
    case TidakSerius => "TIDAK_SERIUS"
  }

  /** `VerificationType`: a community vote. */
  datatype VerificationType = Confirm | False

  /** A password hash, abstracted to the secret it was generated from; the hashing library is
      opaque and only its check behaviour matters. */
  datatype PasswordHash = Hashed(secret: string)

  /** `generate_password_hash`. */
  function HashPassword(password: string): PasswordHash {
    Hashed(password)
  }

  /** `check_password_hash`: a hash accepts exactly the password it was made from. */
  predicate CheckPassword(h: PasswordHash, password: string) {
    h.secret == password
  }

  lemma CheckPasswordAcceptsOnlyOriginal(password: string, attempt: string)
    ensures CheckPassword(HashPassword(password), attempt) <==> attempt == password
  {
  }

  datatype User = User(
    username: string,
    email: string,
    fullName: string,
    passwordHash: PasswordHash,
    phone: Option<string>,
    bio: Option<string>,
    points: int,
    role: Role)

  /** A user row as the constructor `User(...)` creates it: points and role take their
      column defaults, 0 and USER. */
  function NewUser(username: string, email: string, fullName: string, password: string,
                   phone: Option<string>, bio: Option<string>): (u: User)
    ensures u.points == 0 && u.role == Citizen
    ensures CheckPassword(u.passwordHash, password)
    ensures u.username == username && u.email == email && u.fullName == fullName
  {
    User(username, email, fullName, HashPassword(password), phone, bio, 0, Citizen)
  }

  datatype Post = Post(
    userId: nat,
    imagePath: string,
    latitude: real,
    longitude: real,
    address: Option<string>,
    province: Option<string>,
    city: Option<string>,
    district: Option<string>,
    potholeCount: int,
    severity: SeverityLabel,
    caption: Option<string>,
    confirmCount: int,
    falseCount: int,
    status: PostStatus,
    createdAt: int)

  /** One vote: a user's CONFIRM or FALSE on a post. */
  datatype Verification = Verification(postId: nat, userId: nat, kind: VerificationType)

  /** A review of the application. The Review class is not part of models.py as shown; its
      columns are the ones routes/others.py reads and writes. */
  datatype Review = Review(userId: nat, rating: int, comment: Option<string>,
                           sentiment: Option<string>, createdAt: int)

  /** The database: one map per table, keyed by primary key, and the next key each table
      will hand out (keys are never reused). */
  datatype State = State(
    users: map<nat, User>,
    posts: map<nat, Post>,
    verifications: map<nat, Verification>,
    reviews: map<nat, Review>,
    nextUserId: nat,
    nextPostId: nat,
    nextVerificationId: nat,
    nextReviewId: nat)

  function EmptyState(): State {
    State(map[], map[], map[], map[], 1, 1, 1, 1)
  }

  /** An HTTP reply: a success code with a payload, or an error code with its message. */
  datatype Reply<T> = Ok(code: nat, value: T) | Err(code: nat, message: string)

  /** What a handler does: its reply and the state after the request. */
  datatype Step<T> = Step(reply: Reply<T>, state: State)

  // ---------------------------------------------------------------- invariants

  /** `username` is a unique column. */
  predicate UniqueUsernames(users: map<nat, User>) {
    forall a, b :: a in users && b in users && a != b ==> users[a].username != users[b].username
  }

  /** `email` is a unique column. */
  predicate UniqueEmails(users: map<nat, User>) {
    forall a, b :: a in users && b in users && a != b ==> users[a].email != users[b].email
  }

  /** The unique constraint on (post_id, user_id) of post_verifications. */
  predicate OneVotePerPair(vs: map<nat, Verification>) {
    forall a, b :: a in vs && b in vs && a != b ==>
      vs[a].postId != vs[b].postId || vs[a].userId != vs[b].userId
  }

  /** The live rows of type `t` on post `p`. */
  function VotesFor(vs: map<nat, Verification>, p: nat, t: VerificationType): set<nat> {
    set id | id in vs && vs[id].postId == p && vs[id].kind == t
  }

  function CountVotes(vs: map<nat, Verification>, p: nat, t: VerificationType): nat {
    |VotesFor(vs, p, t)|
  }

  /** Every post's cached tallies equal the live counts of its CONFIRM and FALSE rows. */
  predicate TalliesMatch(s: State) {
    forall p :: p in s.posts ==>
      s.posts[p].confirmCount == CountVotes(s.verifications, p, Confirm)
      && s.posts[p].falseCount == CountVotes(s.verifications, p, False)
  }

  /** Every key in use, and every post a vote refers to, is below the next key to be handed out. */
  predicate KeysBelowCounters(s: State) {
    && (forall id :: id in s.users ==> id < s.nextUserId)
    && (forall id :: id in s.posts ==> id < s.nextPostId)
    && (forall id :: id in s.verifications ==> id < s.nextVerificationId)
    && (forall id :: id in s.reviews ==> id < s.nextReviewId)
    && (forall id :: id in s.verifications ==> s.verifications[id].postId < s.nextPostId)
  }

  /** The database invariant the handlers keep. */
  predicate Valid(s: State) {
    && UniqueUsernames(s.users)
    && UniqueEmails(s.users)
    && OneVotePerPair(s.verifications)
    && TalliesMatch(s)
    && KeysBelowCounters(s)
  }

  lemma EmptyStateValid()
    ensures Valid(EmptyState())
  {
  }

  /** A post nobody has voted on has zero tallies of both kinds. */
  lemma NoVotesCountZero(vs: map<nat, Verification>, p: nat)
    requires forall id :: id in vs ==> vs[id].postId != p
    ensures CountVotes(vs, p, Confirm) == 0 && CountVotes(vs, p, False) == 0
  {
    assert VotesFor(vs, p, Confirm) == {};
    assert VotesFor(vs, p, False) == {};
  }

  // ---------------------------------------------------------------- to_dict projections

  /** `x if x else ""`: a missing or empty text becomes "". */
  function OrEmpty(o: Option<string>): (r: string)
    ensures r == "" <==> o == None || o == Some("")
    ensures r != "" ==> o == Some(r)
  {
    if o.Some? then o.value else ""
  }

  /** The dictionary `User.to_dict` returns; it has no field for the password hash. */
  datatype UserView = UserView(id: nat, username: string, email: string, fullName: string,
                               role: string, phone: string, bio: string, points: int)

  function ToUserView(id: nat, u: User): (v: UserView)
    ensures v.phone == OrEmpty(u.phone) && v.bio == OrEmpty(u.bio)
    ensures v.role == RoleValue(u.role)
  {
    UserView(id, u.username, u.email, u.fullName, RoleValue(u.role), OrEmpty(u.phone), OrEmpty(u.bio), u.points)
  }

  /** The user dictionary never depends on the password hash. */
  lemma UserViewHidesPassword(id: nat, u: User, h: PasswordHash)
    ensures ToUserView(id, u) == ToUserView(id, u.(passwordHash := h))
  {
  }

  /** The dictionary `Post.to_dict` returns, without its image URL and date string. */
  datatype PostView = PostView(id: nat, userId: nat, uploadedBy: string, lat: real, long: real,
                               address: string, severity: string, potholeCount: int,
                               caption: Option<string>, valid: int, falseVotes: int)

  /** `uploaded_by`: the author's full name, or "Unknown" without an author. */
  function UploadedBy(users: map<nat, User>, userId: nat): (r: string)
    ensures userId in users ==> r == users[userId].fullName
    ensures userId !in users ==> r == "Unknown"
  {
    if userId in users then users[userId].fullName else "Unknown"
  }

  const UnknownLocation: string := "Lokasi tidak diketahui"

  function ToPostView(s: State, id: nat): (v: PostView)
    requires id in s.posts
    ensures v.valid == s.posts[id].confirmCount && v.falseVotes == s.posts[id].falseCount
    ensures v.address == (if OrEmpty(s.posts[id].address) == "" then UnknownLocation else s.posts[id].address.value)
    ensures v.uploadedBy == UploadedBy(s.users, s.posts[id].userId)
  {
    var p := s.posts[id];
    PostView(id, p.userId, UploadedBy(s.users, p.userId), p.latitude, p.longitude,
             if OrEmpty(p.address) == "" then UnknownLocation else p.address.value,
             SeverityName(p.severity), p.potholeCount, p.caption, p.confirmCount, p.falseCount)
  }

  /** In a valid state the `verification` counts a post's dictionary exposes are the live
      numbers of CONFIRM and FALSE votes on it. */
  lemma PostViewShowsLiveTallies(s: State, id: nat)
    requires Valid(s) && id in s.posts
    ensures ToPostView(s, id).valid == CountVotes(s.verifications, id, Confirm)
    ensures ToPostView(s, id).falseVotes == CountVotes(s.verifications, id, False)
  {
  }
}

=== FILE: text.dfy ===
/** String helpers with the meaning Python gives them: `lower`, `strip`, `split`,
    substring search, decimal formatting and code-point ordering. */
module Text {
  import opened Wrappers

  /** `str.lower` on one character; only ASCII letters are folded. */
  function LowerChar(c: char): char {
    if 'A' <= c <= 'Z' then (c as int + 32) as char else c
  }

  /** `str.lower` on a whole string: each ASCII capital becomes its small letter, no capital
      is left, and every other character is kept. */
  function Lower(s: string): (r: string)
    ensures |r| == |s|
    ensures forall i :: 0 <= i < |s| && 'A' <= s[i] <= 'Z' ==> r[i] as int == s[i] as int + 32
    ensures forall i :: 0 <= i < |s| && !('A' <= s[i] <= 'Z') ==> r[i] == s[i]
    ensures forall i :: 0 <= i < |r| ==> !('A' <= r[i] <= 'Z')
  {
    seq(|s|, i requires 0 <= i < |s| => LowerChar(s[i]))
  }

  /** A lower-cased string has no upper-case ASCII letter left, and folding it again changes nothing. */
  lemma LowerIdempotent(s: string)
    ensures forall i :: 0 <= i < |s| ==> !('A' <= Lower(s)[i] <= 'Z')
    ensures Lower(Lower(s)) == Lower(s)
  {
  }

  /** `part in s`: some window of `s` equals `part`. */
  predicate Contains(s: string, part: string) {
    exists i {:trigger s[i..]} :: 0 <= i <= |s| - |part| && s[i..][..|part|] == part
  }

  /** Case-insensitive substring test, as SQL `ILIKE '%part%'` without wildcards inside `part`. */
  predicate ContainsIgnoreCase(s: string, part: string) {
    Contains(Lower(s), Lower(part))
  }

  /** The characters Python's `str.isspace` accepts, so the ones `str.strip()` removes. */
  predicate IsSpace(c: char) {
    var n := c as int;
    (9 <= n <= 13) || (28 <= n <= 32) || n == 0x85 || n == 0xA0 || n == 0x1680
    || (0x2000 <= n <= 0x200A) || n == 0x2028 || n == 0x2029 || n == 0x202F
    || n == 0x205F || n == 0x3000
  }

  function TrimStart(s: string): (r: string)
    ensures |r| <= |s| && r == s[|s| - |r|..]
    ensures forall k :: 0 <= k < |s| - |r| ==> IsSpace(s[k])
    ensures |r| == 0 || !IsSpace(r[0])
  {
    if |s| > 0 && IsSpace(s[0]) then TrimStart(s[1..]) else s
  }

  function TrimEnd(s: string): (r: string)
    ensures |r| <= |s| && r == s[..|r|]
    ensures forall k :: |r| <= k < |s| ==> IsSpace(s[k])
    ensures |r| == 0 || !IsSpace(r[|r| - 1])
  {
    if |s| > 0 && IsSpace(s[|s| - 1]) then TrimEnd(s[..|s| - 1]) else s
  }

  /** `str.strip()`: the longest slice of `s` that neither starts nor ends with whitespace,
      obtained by removing only whitespace from both ends. */
  function Strip(s: string): (r: string)
    ensures exists i {:trigger s[i..]} :: 0 <= i <= |s| - |r| && r == s[i..][..|r|]
                        && (forall k :: 0 <= k < i ==> IsSpace(s[k]))
                        && (forall k :: i + |r| <= k < |s| ==> IsSpace(s[k]))
    ensures |r| == 0 || (!IsSpace(r[0]) && !IsSpace(r[|r| - 1]))
  {
    var t := TrimStart(s);
    var r := TrimEnd(t);
    var i := |s| - |t|;
    assert r == s[i..][..|r|];
    r
  }

  /** Index of the first occurrence of `c` in `s`, if any. */
  function IndexOf(s: string, c: char): (r: Option<nat>)
    ensures r.None? <==> c !in s
    ensures r.Some? ==> r.value < |s| && s[r.value] == c && c !in s[..r.value]
  {
    if |s| == 0 then None
    else if s[0] == c then Some(0)
    else match IndexOf(s[1..], c)
      case None => None
      case Some(i) =>
        assert s[..i + 1] == [s[0]] + s[1..][..i];
        Some(i + 1)
  }

  /** `s.split(c)[0]`: everything before the first `c`, or all of `s` when there is none. */
  function BeforeFirst(s: string, c: char): (r: string)
    ensures c !in r
    ensures |r| <= |s| && r == s[..|r|]
    ensures |r| == |s| <==> c !in s
    ensures |r| < |s| ==> s[|r|] == c
  {
    match IndexOf(s, c)
    case None => s
    case Some(i) => s[..i]
  }

  /** `s.split(" ")[1]`, with `None` for the `IndexError` raised when `s` has no space. */
  function SecondField(s: string): (r: Option<string>)
    ensures r.None? <==> ' ' !in s
    ensures r.Some? ==> ' ' !in r.value
  {
    match IndexOf(s, ' ')
    case None => None
    case Some(i) => Some(BeforeFirst(s[i + 1..], ' '))
  }

  /** The first `c` is at `i` when `s[i]` is `c` and no earlier character is. */
  lemma IndexOfAt(s: string, c: char, i: nat)
    requires i < |s| && s[i] == c && c !in s[..i]
    ensures IndexOf(s, c) == Some(i)
  {
  }

  /** `split(c)[0]` is the prefix up to `i` when that prefix has no `c` and `i` ends the
      string or holds a `c`. */
  lemma BeforeFirstAt(s: string, c: char, i: nat)
    requires i <= |s| && c !in s[..i]
    requires i == |s| || s[i] == c
    ensures BeforeFirst(s, c) == s[..i]
  {
    if i < |s| {
      IndexOfAt(s, c, i);
    } else {
      assert s[..i] == s;
    }
  }

  /** Splitting undoes joining: for `scheme + " " + token + rest`, where neither `scheme` nor
      `token` holds a space and `rest` is empty or starts a further field, the second field is `token`. */
  lemma SecondFieldOfJoin(scheme: string, token: string, rest: string)
    requires ' ' !in scheme && ' ' !in token
    requires rest == [] || rest[0] == ' '
    ensures SecondField(scheme + " " + token + rest) == Some(token)
  {
    var s := scheme + " " + token + rest;
    assert s[..|scheme|] == scheme;
    assert s[|scheme|] == ' ';
    IndexOfAt(s, ' ', |scheme|);
    var after := s[|scheme| + 1..];
    assert after == token + rest;
    assert after[..|token|] == token;
    BeforeFirstAt(after, ' ', |token|);
  }

  function DigitChar(d: nat): char
    requires d < 10
  {
    "0123456789"[d]
  }

  /** Decimal rendering of a natural number, as `str(n)` / an f-string does it. */
  function NatToString(n: nat): (r: string)
    ensures |r| >= 1
    ensures forall i :: 0 <= i < |r| ==> '0' <= r[i] <= '9'
    decreases n
  {
    if n < 10 then [DigitChar(n)] else NatToString(n / 10) + [DigitChar(n % 10)]
  }

  /** The value of a string of decimal digits (`int(s)` on such a string). */
  function DigitsValue(s: string): nat
    requires forall i :: 0 <= i < |s| ==> '0' <= s[i] <= '9'
  {
    if |s| == 0 then 0
    else DigitsValue(s[..|s| - 1]) * 10 + (s[|s| - 1] as int - '0' as int)
  }

  /** Parsing the decimal rendering gives the number back. */
  lemma {:induction false} DigitsValueOfNatToString(n: nat)
    ensures DigitsValue(NatToString(n)) == n
    decreases n
  {
    var r := NatToString(n);
    if n < 10 {
      assert r == [DigitChar(n)];
      assert r[..0] == [];
    } else {
      DigitsValueOfNatToString(n / 10);
      assert r[..|r| - 1] == NatToString(n / 10);
      assert r[|r| - 1] == DigitChar(n % 10);
    }
  }

  /** Distinct numbers render as distinct strings. */
  lemma NatToStringInjective(a: nat, b: nat)
    requires NatToString(a) == NatToString(b)
    ensures a == b
  {
    DigitsValueOfNatToString(a);
    DigitsValueOfNatToString(b);
  }
}

=== FILE: token_gate.dfy ===
/** The `token_required` decorator of utils/decorators.py: how the Authorization header is
    classified before a protected handler runs. JWT signature and expiry checking is the
    parameter `decode`. */
module TokenGate {
  import opened Wrappers
  import opened Store
  import Text

  /** What `jwt.decode` does with a token: yields its `user_id`, or raises the expired or the
      invalid-token error. */
  datatype JwtOutcome = Decoded(userId: nat) | Expired | Invalid

  /** The token `split(" ")[1]` extracts, None when the header has no space. */
  function TokenOf(header: string): Option<string> {
    Text.SecondField(header)
  }

  /** The gate: the id of the user the handler runs as, or the 401 refusal. */
  function Authenticate(s: State, header: Option<string>, decode: string -> JwtOutcome): (r: Reply<nat>)
    ensures r.Err? ==> r.code == 401
    ensures header.None? ==> r == Err(401, "Token tidak ditemukan")
    ensures header.Some? && TokenOf(header.value).None? ==> r == Err(401, "Format token salah")
    ensures header.Some? && TokenOf(header.value) == Some("") ==> r == Err(401, "Token tidak ditemukan")
    ensures header.Some? && TokenOf(header.value).Some? && TokenOf(header.value).value != "" ==>
              var outcome := decode(TokenOf(header.value).value);
              && (outcome.Expired? ==> r == Err(401, "Token kadaluarsa"))
              && (outcome.Invalid? ==> r == Err(401, "Token tidak valid"))
              && (outcome.Decoded? && outcome.userId !in s.users ==> r == Err(401, "User tidak valid"))
    ensures r.Ok? <==>
              header.Some? && TokenOf(header.value).Some? && TokenOf(header.value).value != ""
              && decode(TokenOf(header.value).value).Decoded?
              && decode(TokenOf(header.value).value).userId in s.users
    ensures r.Ok? ==> r.code == 200 && r.value == decode(TokenOf(header.value).value).userId
  {
    if header.None? then Err(401, "Token tidak ditemukan")
    else match TokenOf(header.value)
      case None => Err(401, "Format token salah")
      case Some(token) =>
        if token == "" then Err(401, "Token tidak ditemukan")
        else match decode(token)
          case Expired => Err(401, "Token kadaluarsa")
          case Invalid => Err(401, "Token tidak valid")
          case Decoded(id) => if id in s.users then Ok(200, id) else Err(401, "User tidak valid")
  }

  /** A header `<scheme> <token>` with a valid token for an existing user lets the handler run
      as that user, whatever the scheme word is. */
  lemma SchemeWordNotChecked(s: State, scheme: string, token: string, decode: string -> JwtOutcome, id: nat)
    requires ' ' !in scheme && ' ' !in token && token != ""
    requires decode(token) == Decoded(id) && id in s.users
    ensures Authenticate(s, Some(scheme + " " + token), decode) == Ok(200, id)
    ensures Authenticate(s, Some("Bearer " + token), decode) == Ok(200, id)
  {
    Text.SecondFieldOfJoin(scheme, token, "");
    assert scheme + " " + token + "" == scheme + " " + token;
    Text.SecondFieldOfJoin("Bearer", token, "");
    assert "Bearer" + " " + token + "" == "Bearer " + token;
  }

  /** A lone scheme word is a format error; a header with an empty second field counts as no
      token at all. */
  lemma MalformedHeaders(s: State, decode: string -> JwtOutcome)
    ensures Authenticate(s, Some("Bearer"), decode) == Err(401, "Format token salah")
    ensures Authenticate(s, Some("Bearer "), decode) == Err(401, "Token tidak ditemukan")
  {
    Text.SecondFieldOfJoin("Bearer", "", "");
    assert "Bearer" + " " + "" + "" == "Bearer ";
  }
}

=== FILE: users.dfy ===
/** The account handlers of routes/users.py: profile update and user deletion. */
module Users {
  import opened Wrappers
  import opened Store

  /** The keys present in a profile-update body; an absent key is None. */
  datatype ProfileUpdate = ProfileUpdate(
    fullName: Option<string>,
    phone: Option<string>,
    bio: Option<string>,
    password: Option<string>)

  const MinPasswordLength: nat := 6

  /** A password that is sent and non-empty is applied; an absent or empty one is ignored. */
  predicate ChangesPassword(password: Option<string>) {
    password.Some? && password.value != ""
  }

  /** The user after the present profile fields are applied. */
  function ApplyProfile(u: User, upd: ProfileUpdate): (u': User)
    ensures u'.username == u.username && u'.email == u.email
    ensures u'.points == u.points && u'.role == u.role
  {
    u.(fullName := upd.fullName.GetOr(u.fullName),
       phone := if upd.phone.Some? then upd.phone else u.phone,
       bio := if upd.bio.Some? then upd.bio else u.bio,
       passwordHash := if ChangesPassword(upd.password) then HashPassword(upd.password.value) else u.passwordHash)
  }

  /** `update_profile`: only the user themself may edit the profile; a non-empty password
      shorter than six characters is refused and nothing is saved; otherwise exactly the
      fields sent change, and the password changes only when a non-empty one is sent. */
  function UpdateProfile(s: State, actor: nat, target: nat, upd: ProfileUpdate): (r: Step<UserView>)
    requires actor in s.users
    ensures r.reply.Err? ==> r.state == s
    ensures actor != target ==> r.reply == Err(403, "Akses ditolak")
    ensures actor == target && ChangesPassword(upd.password) && |upd.password.value| < MinPasswordLength
            ==> r.reply == Err(400, "Password minimal 6 karakter")
    ensures r.reply.Ok? <==>
              actor == target && !(ChangesPassword(upd.password) && |upd.password.value| < MinPasswordLength)
    ensures r.reply.Ok? ==> actor in r.state.users
    ensures r.reply.Ok? ==>
              var u := s.users[actor];
              var u' := r.state.users[actor];
              && r.state == s.(users := s.users[actor := u'])
              && u'.username == u.username && u'.email == u.email && u'.points == u.points && u'.role == u.role
              && (upd.fullName.Some? ==> u'.fullName == upd.fullName.value)
              && (upd.fullName.None? ==> u'.fullName == u.fullName)
              && (upd.phone.Some? ==> u'.phone == upd.phone)
              && (upd.phone.None? ==> u'.phone == u.phone)
              && (upd.bio.Some? ==> u'.bio == upd.bio)
              && (upd.bio.None? ==> u'.bio == u.bio)
              && (ChangesPassword(upd.password) ==> forall pw :: CheckPassword(u'.passwordHash, pw) <==> pw == upd.password.value)
              && (!ChangesPassword(upd.password) ==> u'.passwordHash == u.passwordHash)
              && r.reply == Ok(200, ToUserView(actor, u'))
  {
    if actor != target then Step(Err(403, "Akses ditolak"), s)
    else if ChangesPassword(upd.password) && |upd.password.value| < MinPasswordLength then
      Step(Err(400, "Password minimal 6 karakter"), s)
    else
      var u' := ApplyProfile(s.users[actor], upd);
      Step(Ok(200, ToUserView(actor, u')), s.(users := s.users[actor := u']))
  }

  /** A profile update never touches usernames or emails, so it keeps the database invariant. */
  lemma UpdateProfilePreservesValid(s: State, actor: nat, target: nat, upd: ProfileUpdate)
    requires Valid(s) && actor in s.users
    ensures Valid(UpdateProfile(s, actor, target, upd).state)
  {
    var s' := UpdateProfile(s, actor, target, upd).state;
    assert forall id :: id in s'.users ==>
             (id in s.users && s'.users[id].username == s.users[id].username
              && s'.users[id].email == s.users[id].email);
  }

  // ================================================================ deletion

  /** The rows `delete_user` keeps: everything not belonging to `target`. Other users' votes
      survive even when they are on `target`'s posts. */
  function WithoutUser(s: State, target: nat): (s': State)
    ensures s'.users == s.users - {target}
    ensures forall id :: id in s'.posts <==> id in s.posts && s.posts[id].userId != target
    ensures forall id :: id in s'.verifications <==> id in s.verifications && s.verifications[id].userId != target
    ensures forall id :: id in s'.reviews <==> id in s.reviews && s.reviews[id].userId != target
    ensures forall id :: id in s'.posts ==> s'.posts[id] == s.posts[id]
    ensures forall id :: id in s'.verifications ==> s'.verifications[id] == s.verifications[id]
    ensures forall id :: id in s'.reviews ==> s'.reviews[id] == s.reviews[id]
    ensures s'.nextUserId == s.nextUserId && s'.nextPostId == s.nextPostId
    ensures s'.nextVerificationId == s.nextVerificationId && s'.nextReviewId == s.nextReviewId
  {
    s.(users := s.users - {target},
       posts := map id | id in s.posts && s.posts[id].userId != target :: s.posts[id],
       verifications := map id | id in s.verifications && s.verifications[id].userId != target :: s.verifications[id],
       reviews := map id | id in s.reviews && s.reviews[id].userId != target :: s.reviews[id])
  }

  /** The order of `delete_user`'s refusals: deleting oneself (for every role), then a
      non-admin actor, then an unknown target. */
  function DeleteRefusal(s: State, actor: nat, target: nat): (r: Option<(nat, string)>)
    requires actor in s.users
    ensures actor == target ==> r == Some((400, "Anda tidak dapat menghapus akun sendiri saat sedang login"))
    ensures actor != target && s.users[actor].role != Admin ==> r == Some((403, "Akses ditolak"))
    ensures actor != target && s.users[actor].role == Admin && target !in s.users ==> r == Some((404, "Not Found"))
    ensures r.None? <==> actor != target && s.users[actor].role == Admin && target in s.users
  {
    if actor == target then Some((400, "Anda tidak dapat menghapus akun sendiri saat sedang login"))
    else if s.users[actor].role != Admin then Some((403, "Akses ditolak"))
    else if target !in s.users then Some((404, "Not Found"))
    else None
  }

  /** `delete_user` as written: after the refusals, the target's votes, posts, reviews and
      account are removed, and the acting admin is kept. The tallies of the posts the target
      had voted on are left as they were. */
  function DeleteUser(s: State, actor: nat, target: nat): (r: Step<()>)
    requires actor in s.users
    ensures r.reply.Err? ==> r.state == s
    ensures DeleteRefusal(s, actor, target).Some? ==>
              r.reply == Err(DeleteRefusal(s, actor, target).value.0, DeleteRefusal(s, actor, target).value.1)
    ensures r.reply.Ok? <==> DeleteRefusal(s, actor, target).None?
    ensures r.reply.Ok? ==>
              && target !in r.state.users && actor in r.state.users
              && r.state.users == s.users - {target}
              && (forall id :: id in r.state.posts ==> r.state.posts[id].userId != target)
              && (forall id :: id in r.state.verifications ==> r.state.verifications[id].userId != target)
              && (forall id :: id in r.state.reviews ==> r.state.reviews[id].userId != target)
              && (forall id :: id in s.posts && s.posts[id].userId != target ==>
                    id in r.state.posts && r.state.posts[id] == s.posts[id])
              && (forall id :: id in s.verifications && s.verifications[id].userId != target ==>
                    id in r.state.verifications && r.state.verifications[id] == s.verifications[id])
              && (forall id :: id in s.reviews && s.reviews[id].userId != target ==>
                    id in r.state.reviews && r.state.reviews[id] == s.reviews[id])
              && r.state.nextUserId == s.nextUserId && r.state.nextPostId == s.nextPostId
              && r.state.nextVerificationId == s.nextVerificationId && r.state.nextReviewId == s.nextReviewId
  {
    match DeleteRefusal(s, actor, target)
    case Some((code, message)) => Step(Err(code, message), s)
    case None => Step(Ok(200, ()), WithoutUser(s, target))
  }

  /** The evidently intended deletion: the same removals, followed by a recount of every
      remaining post's tallies from the votes that remain. */
  function DeleteUserRecounting(s: State, actor: nat, target: nat): (r: Step<()>)
    requires actor in s.users
    ensures r.reply == DeleteUser(s, actor, target).reply
    ensures r.reply.Err? ==> r.state == s
    ensures r.reply.Ok? ==>
              && r.state.users == s.users - {target}
              && r.state.verifications == DeleteUser(s, actor, target).state.verifications
              && r.state.reviews == DeleteUser(s, actor, target).state.reviews
              && r.state.posts.Keys == DeleteUser(s, actor, target).state.posts.Keys
              && forall id :: id in r.state.posts ==>
                   && r.state.posts[id].confirmCount == CountVotes(r.state.verifications, id, Confirm)
                   && r.state.posts[id].falseCount == CountVotes(r.state.verifications, id, False)
                   && r.state.posts[id].userId == s.posts[id].userId
                   && r.state.posts[id].status == s.posts[id].status
  {
    var d := DeleteUser(s, actor, target);
    if d.reply.Err? then d
    else
      var t := d.state;
      var posts := map id | id in t.posts :: t.posts[id].(
                     confirmCount := CountVotes(t.verifications, id, Confirm),
                     falseCount := CountVotes(t.verifications, id, False));
      Step(d.reply, t.(posts := posts))
  }

  /** The corrected deletion keeps the whole database invariant. */
  lemma DeleteUserRecountingPreservesValid(s: State, actor: nat, target: nat)
    requires Valid(s) && actor in s.users
    ensures Valid(DeleteUserRecounting(s, actor, target).state)
  {
    var s' := DeleteUserRecounting(s, actor, target).state;
    assert OneVotePerPair(s'.verifications) by {
      if DeleteRefusal(s, actor, target).None? {
        assert forall id :: id in s'.verifications ==> id in s.verifications && s'.verifications[id] == s.verifications[id];
      }
    }
  }

  /** When the target has cast no vote on a post that survives the deletion, the code as
      written already leaves every tally live. */
  lemma DeleteUserSoundWithoutForeignVotes(s: State, actor: nat, target: nat)
    requires Valid(s) && actor in s.users
    requires forall id :: id in s.verifications && s.verifications[id].userId == target
               ==> s.verifications[id].postId !in s.posts || s.posts[s.verifications[id].postId].userId == target
    ensures Valid(DeleteUser(s, actor, target).state)
  {
    var s' := DeleteUser(s, actor, target).state;
    if DeleteRefusal(s, actor, target).None? {
      forall q, t | q in s'.posts
        ensures CountVotes(s'.verifications, q, t) == CountVotes(s.verifications, q, t)
      {
        assert VotesFor(s'.verifications, q, t) == VotesFor(s.verifications, q, t);
      }
      assert forall id :: id in s'.verifications ==> id in s.verifications && s'.verifications[id] == s.verifications[id];
    }
  }

  /** A three-user database: admin 1, author 2 of post 1, and voter 3 who confirmed post 1. */
  function VoterScenario(): State {
    var users := map[1 := NewUser("admin", "a@x", "Admin", "secret1", None, None).(role := Admin),
                     2 := NewUser("author", "b@x", "Author", "secret2", None, None),
                     3 := NewUser("voter", "c@x", "Voter", "secret3", None, None)];
    var post := Post(2, "1_2.jpg", 0.0, 0.0, Some("Jalan"), Some(""), Some(""), Some(""),
                     1, TidakSerius, None, 1, 0, Menunggu, 0);
    State(users, map[1 := post], map[1 := Verification(1, 3, Confirm)], map[], 4, 2, 2, 1)
  }

  lemma VoterScenarioValid()
    ensures Valid(VoterScenario())
  {
    var s := VoterScenario();
    assert s.users[1].username == "admin" && s.users[2].username == "author" && s.users[3].username == "voter";
    assert s.users[1].email == "a@x" && s.users[2].email == "b@x" && s.users[3].email == "c@x";
    assert s.users.Keys == {1, 2, 3};
    assert VotesFor(s.verifications, 1, Confirm) == {1};
    assert VotesFor(s.verifications, 1, False) == {};
  }

  /** Deleting the voter with the code as written leaves post 1 claiming one confirmation
      while no CONFIRM row for it remains; the corrected deletion recounts it to zero. */
  lemma DeleteUserLeavesStaleTally()
    ensures Valid(VoterScenario())
    ensures var r := DeleteUser(VoterScenario(), 1, 3);
            && r.reply.Ok?
            && r.state.posts[1].confirmCount == 1
            && CountVotes(r.state.verifications, 1, Confirm) == 0
            && !TalliesMatch(r.state)
    ensures DeleteUserRecounting(VoterScenario(), 1, 3).state.posts[1].confirmCount == 0
  {
    VoterScenarioValid();
    var s := VoterScenario();
    assert DeleteRefusal(s, 1, 3).None?;
    var r := DeleteUser(s, 1, 3);
    assert r.state == WithoutUser(s, 3);
    assert r.state.verifications.Keys == {};
    assert 1 in r.state.posts && r.state.posts[1] == s.posts[1];
    assert VotesFor(r.state.verifications, 1, Confirm) == {};
  }
}

=== FILE: wrappers.dfy ===
/** Failure-compatible wrapper types shared by every module of the model. */
module Wrappers {

  /** An optional value: a Python `None` or a present value. */
  datatype Option<+T> = None | Some(value: T) {

    /** The present value, or `default` when there is none (Python's `d.get(k, default)`). */
    function GetOr(default: T): T {
      match this
      case Some(v) => v
      case None => default
    }
  }
}
